=== FILE: README.md ===
# 3D-print failure detection: a verified model of the card service

The service accepts an uploaded photo of a 3D print, runs a pretrained
object detector on it, and records the outcome on a *card*: an opaque id
holding the latest annotated image URL, a status (PENDING, NORMAL or FAIL)
and per-label confidence scores. Short-lived API keys let an integrator
replace a card's image later. A small browser client uploads images, keeps
the current key and builds a ready-to-paste cURL command.

This Dafny project models the sequential logic under that glue:

- `database.dfy` (module `Database`): the `cards` and `apikeys` tables as
  two finite maps. Cards are upserted by id. API keys are stored under
  their SHA-256 digest with an expiry and a `used` flag. It covers
  `verify_apikey`, `get_card_id_by_apikey` and `mark_apikey_used`, and
  `list_cards` as a method that returns the newest rows first.
- `detector.dfy` (module `Detector`): what `detect` decides once image
  decoding and inference are stripped away. It folds (label, confidence)
  boxes into a per-label maximum and applies the spaghetti threshold rule.
  It also fixes the result file name.
- `cards.dfy` (module `Cards`): every HTTP handler as a function, except
  the listing, which is a method because `ListCards` is one. Each takes
  the request and the database and returns the reply, the new database
  and the webhook target. The handlers are create, apikey, the two
  replace endpoints, list, get, genkey, gen_card and gen_cardkey.
- `scenarios.dfy` (module `Scenarios`): properties that connect handlers,
  such as a created card being readable, a generated key opening its card,
  and a used key being refused.
- `client.dfy` (module `Client`): the pure parts of the browser script.
  These are the cache-buster, the cURL command, the key field, and upload
  routing with its fall back to create after a 401.
- Support modules: `wrappers.dfy` (Option, Result), `config.dfy`
  (constants), `schemas.dfy` (the Card record), `text.dfy` (SQLite's TEXT
  order, hex tokens, decimals, JavaScript `trim`, splitting) and `uri.dfy`
  (`encodeURIComponent`).

Modelling choices:

- SQLite is an ideal map. Failed statements roll back, so a rejected upsert
  or insert leaves the database unchanged. A missing `updated_at` violates
  NOT NULL. A repeated key digest violates the primary key. Both are
  `Err` results, and the handlers turn them into 500 replies.
- `scores_json` is stored as the score map itself, because the JSON round
  trip is taken to be the identity.
- SHA-256 is an injective function (`Database.Sha256`). The digest
  datatype's field exists only to make injectivity hold; no operation
  reads it.
- Clock readings and random draws are parameters, carried per request in
  `Cards.Env`. `time.time()` is a `real`. `datetime.utcnow().isoformat()`
  is a string. `secrets.token_hex(n)` is the hex text of exactly `n` given
  bytes. `secrets.token_urlsafe` values are given strings.
- `ORDER BY updated_at` compares TEXT under SQLite's BINARY collation,
  modelled as code-point lexicographic order (`Text.LexLe`). A negative
  `LIMIT` means no limit, as in SQLite.
- The detector is the `Detect` of `detector.dfy`, applied to the list of
  boxes the model would report for the upload.
- Python truthiness is explicit. An empty API-key header counts as missing,
  an empty session cookie counts as absent, and an empty card id from the
  key lookup counts as no card.

## Model

| member | source | states |
|---|---|---|
| `Database.UpsertCard` | 3dprint-detection/backend/database.py:54-79 | A missing `updated_at` is rejected and changes nothing. Otherwise the card's row is inserted or overwritten with exactly the five data columns. The key table and every other card are untouched. |
| `Database.StoredCard` | 3dprint-detection/backend/database.py:72-77 | A given status, score map or model is stored as given. A missing status is stored as "PENDING", missing scores as `{}` and a missing model as "unknown". The id, URL and timestamp are stored as given. |
| `Database.GetCard` | 3dprint-detection/backend/database.py:81-95 | Returns None exactly when the id has no row. Otherwise it returns a card with that id whose fields are the stored row. |
| `Database.GetAfterUpsert` | 3dprint-detection/backend/database.py:81-95 | Right after an accepted upsert, reading the upserted id returns the written fields with defaults applied. Reading any other id returns what it returned before. |
| `Database.GetReturnsLastUpsert` | 3dprint-detection/backend/database.py:54-95 | Start from an empty store and apply any history of upserts. Reading an id returns None if no accepted upsert named it, and otherwise the fields of the last one that did. |
| `Database.LimitBound` | 3dprint-detection/backend/database.py:100 | `LIMIT` passes at most `limit` rows (all rows when it is negative). It passes fewer only when the table has fewer. |
| `Database.PickNewest` | 3dprint-detection/backend/database.py:100 | Returns a candidate whose `updated_at` is at least that of every other candidate. |
| `Database.ListCards` | 3dprint-detection/backend/database.py:97-112 | Fails with an overflow error exactly when `limit` lies outside the signed 64-bit range the driver can bind. Otherwise it returns min(limit, rows) cards (all rows for a negative limit). Every card is a stored row read back unchanged, no id appears twice, the list is ordered by `updated_at` descending, and no omitted row is newer than a listed one. |
| `Database.SelectNewest` | 3dprint-detection/backend/database.py:100-112 | For a bound limit, the query returns min(limit, rows) stored rows (all rows for a negative limit), read back unchanged and without repeats. They are ordered by `updated_at` descending, and no row left out is newer than one returned. |
| `Database.CreateApiKey` | 3dprint-detection/backend/database.py:115-126 | Stores only the digest of the plaintext key, with `expires_at = now + ttl` and `used = 0`. Returns the plaintext, the card id and the expiry. It does not require the card to exist. It fails only when the digest is already present, and then changes nothing. |
| `Database.VerifyApiKey` | 3dprint-detection/backend/database.py:128-143 | True exactly when the key's digest is on record, bound to the given card, not past expiry (expiring exactly now still passes) and not marked used. |
| `Database.MarkApiKeyUsed` | 3dprint-detection/backend/database.py:145-150 | Sets `used = 1` on the key's row if there is one. Every other key row and every card is unchanged. |
| `Database.GetCardIdByApiKey` | 3dprint-detection/backend/database.py:151-167 | Returns the bound card exactly when the key's digest is on record, unexpired and unused. |
| `Database.LookupAgreesWithVerify` | 3dprint-detection/backend/database.py:128-167 | The lookup returns card c exactly when the key verifies for c. |
| `Database.MarkRevokes` | 3dprint-detection/backend/database.py:145-167 | After the key is marked used, it verifies for no card at any time and the lookup returns None. |
| `Database.MarkLeavesOthers` | 3dprint-detection/backend/database.py:145-150 | Marking one key used changes the verification and lookup answers for no other key, and changes no card. |
| `Database.IssuedKeyLifetime` | 3dprint-detection/backend/database.py:115-143 | A freshly issued key verifies at time t for card c exactly when c is its own card and t is at or before `now + ttl`. |
| `Database.Sha256Injective` | 3dprint-detection/backend/database.py:50-51 | Distinct keys have distinct digests. |
| `Detector.FoldScores` | 3dprint-detection/backend/model.py:28-38 | A label has a score exactly when some box carries it, and every score is at least 0.0. |
| `Detector.FoldScoresIsPerLabelMax` | 3dprint-detection/backend/model.py:31-38 | Each label's score is at least every confidence of its boxes. It is either 0.0 or one of those confidences, so it is their maximum floored at 0.0. |
| `Detector.StatusOf` | 3dprint-detection/backend/model.py:48-52 | "FAIL" exactly when the spaghetti score (0.0 when absent) is at least 0.2, and "NORMAL" otherwise. No other status is produced. |
| `Detector.FailIffSpaghettiBox` | 3dprint-detection/backend/model.py:31-52 | The folded result is FAIL exactly when some spaghetti box has confidence at least 0.2. |
| `Detector.MoreBoxesKeepFail` | 3dprint-detection/backend/model.py:31-52 | Adding boxes can never turn FAIL back into NORMAL. |
| `Detector.ResultNameFor` | 3dprint-detection/backend/model.py:57 | The result file name extends the card id. |
| `Detector.Detect` | 3dprint-detection/backend/model.py:20-67 | The returned record always has a non-empty `result_name`, scores, a status of FAIL or NORMAL consistent with the scores, and `updated_at`. |
| `Detector.ResultNameStable` | 3dprint-detection/backend/model.py:57 | Every detection for one card uses the same result file name, whatever the boxes and the time. |
| `Cards.CheckUpload` | 3dprint-detection/backend/cards.py:80-83 | A content type outside {image/jpeg, image/png} gives the MIME error, whatever the size. An allowed type with more than 20 MiB gives the size error. Anything else passes. |
| `Cards.SessionId` | 3dprint-detection/backend/cards.py:35-48 | A non-empty session cookie is returned unchanged and no cookie is set. Otherwise the fresh token becomes the session and is set as a 30-day, HTTP-only, SameSite=Lax cookie. |
| `Cards.SessionSticky` | 3dprint-detection/backend/cards.py:35-38 | Once the browser sends back the cookie it was given, later requests keep that session and set no new cookie. |
| `Cards.ResultPathRoutesBack` | 3dprint-detection/backend/cards.py:55 | A result URL built from a non-empty session and file name without '/' matches the results route with that same session and file name. |
| `Cards.CardPayload` | 3dprint-detection/backend/cards.py:51-60 | The URL is the session's result path for the file. Status defaults to "processed", scores default to `{}`, `updated_at` is copied and the model is "best.pt". |
| `Cards.ResultNameOf` | 3dprint-detection/backend/cards.py:97-104 | A non-empty `result_name` is used as given. Without one, a missing or empty `detected_image_path` is the current directory: it exists, so the handler goes on with the empty name instead of failing. Another path gives its last component when it exists and the 500 reply when it does not. |
| `Cards.Persist` | 3dprint-detection/backend/cards.py:110-113 | A payload with a timestamp is stored under its card id. The reply carries the stored card, read back with defaults applied, together with the given code, cookie and webhook target. Keys and other cards are untouched. A payload without `updated_at` gives a 500 reply and changes nothing. |
| `Cards.CreateCard` | 3dprint-detection/backend/cards.py:73-113 | For a request that reaches the handler, the reply within the model is 201 or 400. Failures of image decoding and file writes, which the model leaves out, would be 500. A 400 comes exactly from a failed upload check, with nothing stored and no cookie set. A 201 stores a card under the fresh id. That card reads back with the detector's scores and status, the model name, the detector's timestamp and the session's result URL. It leaves keys and other cards alone and sets the session cookie only when one was minted. |
| `Cards.IssueApiKey` | 3dprint-detection/backend/cards.py:116-121 | Issues a key for any id, whether or not the card exists. On 200 it returns the plaintext and an expiry one hour after now, and adds exactly one key row: that digest, bound to the id, with that same expiry and unused. The key verifies at once. Every other key and every card is unchanged. The reply is 500 with nothing changed exactly when the digest is already present. |
| `Cards.ReplaceCard` | 3dprint-detection/backend/cards.py:124-178 | For a request that carries an image part: replies 401 exactly when the key is missing or does not verify for the id, whatever the upload. Replies 400 exactly when the key passes and the upload fails its check. Replies 200 otherwise. A 200 overwrites only that card with the recomputed scores and status, the model name, the new URL and timestamp, and leaves every key as it was. The webhook fires exactly when a callback URL is given. The 401 and 400 replies carry the handler's detail ("Missing API key", "API key expired/invalid" or the upload check's message), change nothing and set no cookie. |
| `Cards.VersionQuery` | 3dprint-detection/backend/cards.py:291 | The cache-buster is "?v=" followed by six lower-case hex digits. |
| `Cards.ReplaceByKey` | 3dprint-detection/backend/cards.py:246-298 | For a request that carries an image part: replies 401 exactly when the key is missing, or unknown, expired or used (or bound to an empty id). Otherwise it checks the upload. On success it overwrites exactly the card the key is bound to, a card the key verifies for, with the recomputed scores and status, the model name and a fresh timestamp. The webhook fires exactly when a callback URL is given. The 401 and 400 replies carry the handler's detail, change nothing and set no cookie. |
| `Cards.ListCardsEndpoint` | 3dprint-detection/backend/cards.py:181-184 | The limit is the query's `limit`, or 50 when the request has none. A limit outside the signed 64-bit range gives 500; otherwise the reply is 200 with the listing described for `ListCards` and a next cursor that is always null. A request without `limit` always gets 200. The database is unchanged either way. |
| `Cards.GetCardEndpoint` | 3dprint-detection/backend/cards.py:187-192 | Replies 404 exactly when the id has no row, and otherwise 200 with the stored card. |
| `Cards.GenCard` | 3dprint-detection/backend/cards.py:213-227 | Reserves the fresh id as a PENDING card with an empty URL and empty scores, and issues no key. |
| `Cards.GenKey` | 3dprint-detection/backend/cards.py:195-210 | Reserves the fresh id as a PENDING card and issues a key bound to that same id. On 200 the key table gains exactly that key's row, expiring one hour after now and unused, and the key verifies at once. If the digest is already present, the placeholder stays, the key table is unchanged and the reply is 500. |
| `Cards.GenCardKey` | 3dprint-detection/backend/cards.py:230-245 | Like genkey: reserves a PENDING card under the fresh id and keeps it even when the key cannot be stored (500, key table unchanged). On 200 it adds exactly one key row, bound to that card with the returned expiry, and returns a key that verifies at once. |
| `Scenarios.GenCardKeyReservesAndBinds` | 3dprint-detection/backend/cards.py:230-245 | gen_cardkey reserves a PENDING card, and on success the key it returns resolves to that card. |
| `Scenarios.SizeLimitIsInclusive` | 3dprint-detection/backend/cards.py:82-83 | An upload of exactly 20 MiB passes and one byte more is refused. |
| `Scenarios.MimeCheckedBeforeSize` | 3dprint-detection/backend/cards.py:30-32 | A bad content type is reported as such even when the file is also too large. |
| `Scenarios.CreatedCardIsReadable` | 3dprint-detection/backend/cards.py:187-192 | A valid create succeeds, and a GET of the new id returns exactly the card the create returned. |
| `Scenarios.NeverStoredIs404` | 3dprint-detection/backend/cards.py:189-191 | Over any history of upserts, GET replies 404 exactly when no accepted upsert named the id. |
| `Scenarios.ReplaceKeepsKeyValid` | 3dprint-detection/backend/cards.py:175-176 | A successful replace does not mark the key used, so the key still verifies wherever it did before. |
| `Scenarios.UsedKeyRefused` | 3dprint-detection/backend/cards.py:133-137 | Once a key is marked used, both replace endpoints answer 401 to it. |
| `Scenarios.GeneratedKeyOpensItsCard` | 3dprint-detection/backend/cards.py:195-210 | A valid upload to the generated card's replace URL with the generated key succeeds at any time up to and including its expiry. |
| `Scenarios.KeyOnlyReplaceUrl` | 3dprint-detection/backend/cards.py:288-291 | The key-only replace returns the session's result URL for the key's card, followed by "?v=" and six hex characters. |
| `Scenarios.VersionedUrlRoutesBack` | 3dprint-detection/backend/cards.py:291 | Splitting the versioned URL at its '?' gives back the result path and the version query, and that path routes back to its session and file. |
| `Config.BaseName` | 3dprint-detection/backend/cards.py:59 | Returns the longest suffix without '/', which is either the whole path or follows a '/'. |
| `Config.ModelNameIsWeightsFile` | 3dprint-detection/backend/config.py:7 | The model name recorded on cards is "best.pt". |
| `Client.WithCacheBuster` | 3dprint-detection/frontend/static/assets/app.js:24-26 | Keeps the URL as a prefix. Appends "&_=" when the URL already has a '?' and "?_=" otherwise, followed by decimal digits. |
| `Client.CacheBusterCarriesTimestamp` | 3dprint-detection/frontend/static/assets/app.js:25 | The appended digits read back as the timestamp. |
| `Client.CacheBusterKeepsOneQuery` | 3dprint-detection/frontend/static/assets/app.js:23-26 | The count of '?' becomes 1 when the URL had none and stays unchanged otherwise, so it is never more than max(1, original). |
| `Client.BuildCurlCommand` | 3dprint-detection/frontend/static/assets/app.js:77-86 | With a card id, it posts to "/cards/" + encodeURIComponent(id) + "/replace". Without one, it posts to "/cards/replace". Both carry the header "x-api-key: " + key. |
| `Client.CopyCurl` | 3dprint-detection/frontend/static/assets/app.js:89-98 | A click yields a command exactly when the button is enabled and the field holds a non-blank key. The command is for the trimmed key, to the per-card replace URL when the field has a card id and to the key-only one otherwise. |
| `Client.CurlMatchesUpload` | 3dprint-detection/frontend/static/assets/app.js:89-98 | While the copy button is enabled, it offers a command exactly when an upload would use a key. The command targets the same path with the same key as that upload's request. |
| `Client.ClearKey` | 3dprint-detection/frontend/static/assets/app.js:50-60 | Clears the value and card id, makes the field editable, hides the Replace URL and disables cURL copy. |
| `Client.ClearedKeyCreates` | 3dprint-detection/frontend/static/assets/app.js:159-190 | After the key is cleared, the next upload is a plain create. |
| `Client.TypedKeyNotCopyable` | 3dprint-detection/frontend/static/assets/app.js:50-60 | After `clearKey`, a key typed by hand is used by the next upload (key-only replace), yet the copy button offers nothing until the next `setKey`. |
| `Client.SetKey` | 3dprint-detection/frontend/static/assets/app.js:28-48 | Stores the key read-only and keeps the card id only when non-empty. Shows the Replace URL, the card's replace endpoint, only when there is a card id. Enables cURL copy only when there is a key. |
| `Client.Route` | 3dprint-detection/frontend/static/assets/app.js:158-190 | A key with a card id goes to per-card replace, a key alone goes to key-only replace, and no key (empty or blank) goes to create. The key is sent trimmed. |
| `Client.UploadFlow` | 3dprint-detection/frontend/static/assets/app.js:134-218 | A file over 20 MiB sends no request and shows the size error. Otherwise the first request is the routed one. Only a 401 from a replace leads to a second request: the key is cleared and the file is sent as a create, whose outcome is treated as a create's. A 2xx replace shows the updated card and clears the key. A 2xx create shows the added card. A non-2xx last response shows its status as the error. A plain create leaves the key field as it was. A replace answered with neither 401 nor 2xx keeps the key. |
| `Client.GeneratedKeyRoutesToCard` | 3dprint-detection/frontend/static/assets/app.js:104-118 | After a generated key and card id are stored, the next upload goes to that card's replace URL with that key, the URL the Replace box shows. |
| `Client.ClientLimitMatchesServer` | 3dprint-detection/frontend/static/assets/app.js:140 | The client's size limit equals the server's. |
| `Uri.EncodeUriComponent` | 3dprint-detection/frontend/static/assets/app.js:165 | The encoded card id contains only unreserved characters and '%', so it is one path segment, and it is at least as long as the input. |
| `Uri.EncodeUnreservedIsIdentity` | 3dprint-detection/frontend/static/assets/app.js:165 | A component made only of unreserved characters is sent unchanged. |
| `Uri.HexTokenEncodesToItself` | 3dprint-detection/frontend/static/assets/app.js:82 | Hex card ids appear in request paths and cURL commands exactly as issued. |
| `Client.ReplacePathIsOneSegment` | 3dprint-detection/frontend/static/assets/app.js:165 | The raw per-card replace path is "/cards/", then the encoded card id as exactly one segment, then "replace", with no query. For an id without '/', such as a hex card id, the server's `/cards/{card_id}/replace` route therefore receives that id. |
| `Text.TokenHex` | 3dprint-detection/backend/cards.py:87 | `token_hex` of n bytes is 2n lower-case hex digits. |
| `Text.HexRoundTrip` | 3dprint-detection/backend/cards.py:87 | A hex token decodes back to the bytes it was made from. |
| `Text.LexLeTotal` | 3dprint-detection/backend/database.py:100 | Any two timestamps are comparable under the TEXT order. |
| `Text.LexLeTransitive` | 3dprint-detection/backend/database.py:100 | The TEXT order is transitive. |
| `Text.LexLeAntisymmetric` | 3dprint-detection/backend/database.py:100 | Timestamps that sort both ways are equal. |
| `Text.TrimEmptyIffBlank` | 3dprint-detection/frontend/static/assets/app.js:21 | `hasKey()` is false exactly when the field holds only white space. |
| `Text.DecimalRoundTrip` | 3dprint-detection/frontend/static/assets/app.js:25 | A timestamp rendered in decimal reads back as itself. |
| `Text.CountConcat` | 3dprint-detection/frontend/static/assets/app.js:25 | Occurrences of a character in a concatenation add up. |
| `Text.SplitOnce` | 3dprint-detection/backend/main.py:40 | Splitting at the first occurrence of a character returns the text before it (which does not contain it) and the text after it. Splitting gives None exactly when the character is absent. |
| `Text.SplitOnceJoin` | 3dprint-detection/backend/main.py:40 | Splitting a + c + b at c gives back a and b when a contains no c. |

## Left out

- Request validation by the web framework is left out. A replace request with no `image` part, or a list request whose `limit` is not an integer, gets 422 before the handler runs, and so before the key check. `Upload` always stands for a file that was sent.
- Client.ReplacePathIsOneSegment: states only the raw path's shape. The server percent-decodes the path before routing, which is left out: an id containing '/' is sent as `%2F`, decoded, and then matches no route.
- `temp_store.py` is not part of this model. It saves uploads, schedules sleep-then-delete timers and has a stale-timer race, which is all filesystem timing and concurrency. The handlers' `save_upload` and `schedule_cleanup` calls have no counterpart here.
- `main.py` is not part of this model beyond the shape of its `/temp/results/{sid}/{filename}` route, which `Cards.ParseResultPath` states to pair result URLs with. The traversal guard (`unquote`, `Path.resolve`), CORS and static mounts depend on library and filesystem behaviour.
- `storage.py` is not part of this model. Nothing in the handlers imports it.
- YOLO inference, torch, cv2 decoding, box drawing and `imwrite` are left out. The detector's boxes are an input list. The `conf=0.2` and `classes=[0, 2]` filters passed to `predict` belong to the inference library and are not applied to that list.
- The `httpx` webhook delivery is left out. The model records only whether the payload is posted and to which URL.
- Cards.ResultNameOf: whether a non-empty fallback path exists is an input (`Env.resultPathExists`), not a filesystem the model can see. Its last component is computed as `BaseName`, without pathlib's normalisation: a trailing '/' or a '.' segment would give a different name. The model's `Detect` always supplies a non-empty `result_name`, so the handlers never take the fallback.
- Exceptions from the I/O left out above become 500 replies in the service: `cv2.imdecode` rejecting an empty or undecodable upload, `save_upload` failing to write, the inference itself. The handler contracts cover only the outcomes of the modelled logic, so a zero-byte PNG gets 201 in the model.
- Database.StoredCard: a status, scores or model key present but mapped to Python's None is not distinguished from a missing key. In the service it reaches SQLite as NULL and fails NOT NULL, whereas the model applies the default. The handlers never build such a payload.
- Clock and randomness: each request reads the clock once (`Env.now`, `Env.utcnow`), whereas `replace` reads `utcnow` again after detecting. Float rounding of `now + ttl` is not modelled.
- Randomness: minted card ids are taken as given, so a collision with an existing id overwrites that card, as the real upsert would. A key token colliding with a stored digest gives a 500.
- SQLite connections, transactions across handlers and concurrent requests are left out. Each handler is one atomic step on the map.
- `init_db`, the DDL and the indexes are left out. They only create the tables the maps stand for.
- Pydantic validation of response bodies is left out. The bodies the handlers build always fit the Card schema.
- JSON number encoding of scores is left out, because the JSON round trip is taken to be the identity.
- Database.SelectNewest: when rows share an `updated_at`, their order is left open, as SQL leaves it.
- Browser-only behaviour is left out. This covers the double-click guard (`isUploading`), the empty file selection, DOM elements that may be missing, rendering of cards (`addCard`, the selected-card update), alerts, the clipboard and `ensureImageOk`. The network call of "Generate Key" is also left out, and only the `setKey` it ends with is modelled.
- Client.SetKey: a `null` key from the server (`apiKey || ""`) is not modelled, because keys are strings here.
- Uri.EncodeUriComponent: the `URIError` JavaScript raises for a lone surrogate cannot occur, because Dafny characters are Unicode scalar values.

=== FILE: cards.dfy ===
/**
 * The decision logic of the HTTP endpoints in backend/cards.py. Each
 * handler is a pure function from the request and the database to the
 * reply and the new database. What a handler does to the filesystem (saving
 * the upload, scheduling deletions) is outside the model; the detector is
 * the `Detect` of the Detector module, fed the boxes found in the upload.
 */
module Cards {
  import opened Wrappers
  import opened Text
  import opened Config
  import opened Schemas
  import opened Database
  import opened Detector

  const SESSION_COOKIE: string := "session_id"

  /** Thirty days, in seconds. */
  const SESSION_MAX_AGE: int := 60 * 60 * 24 * 30

  /** The path under which result images are served. */
  const RESULTS_PREFIX: string := "/temp/results/"

  const BAD_MIME: string := "Only JPEG/PNG allowed"
  const TOO_LARGE: string := "File too large (max 20MB)"
  const MISSING_KEY: string := "Missing API key"
  const INVALID_KEY: string := "API key expired/invalid"
  const NOT_FOUND: string := "Card not found"
  const OUTPUT_MISSING: string := "Detection output missing"
  const SERVER_ERROR: string := "Internal Server Error"
  const RESERVED: string := "Card created and ready for upload"

  type Bytes3 = b: seq<byte> | |b| == 3 witness [0, 0, 0]
  type Bytes4 = b: seq<byte> | |b| == 4 witness [0, 0, 0, 0]

  /**
   * The clock readings and random draws a request consumes: `time.time()`,
   * `datetime.utcnow().isoformat()`, the session token, the bytes behind
   * `secrets.token_hex(4)` for a new card id, the API-key token and the
   * bytes behind `secrets.token_hex(3)` for the cache-buster. The last
   * field is the filesystem's answer to whether the detector's fallback
   * path exists.
   */
  datatype Env = Env(
    now: real,
    utcnow: string,
    sessionToken: string,
    cardBytes: Bytes4,
    keyToken: string,
    nonceBytes: Bytes3,
    resultPathExists: bool)

  /** An uploaded image: its declared content type and its length in bytes. */
  datatype Upload = Upload(content_type: string, size: nat)

  /** A `Set-Cookie` the reply carries. */
  datatype Cookie = Cookie(name: string, value: string, max_age: int, httponly: bool, samesite: string)

  datatype Body =
    | CardBody(card: Card)
    | KeyBody(issued: Issued)
    | ListBody(items: seq<Card>, next_cursor: Option<string>)
    | ReservedBody(card_id: string, message: string)
    | ErrorBody(detail: string)

  datatype Reply = Reply(code: int, body: Body, cookie: Option<Cookie>)

  /**
   * A handled request: the reply, the database afterwards, and the webhook
   * URL the card payload is posted to, if any.
   */
  datatype Handled = Handled(reply: Reply, db: Db, callback: Option<string>)

  function Refuse(db: Db, code: int, detail: string): Handled {
    Handled(Reply(code, ErrorBody(detail), None), db, None)
  }

  /** Python truthiness of an optional header: absent and empty both count as missing. */
  predicate Present(header: Option<string>) {
    header.Some? && header.value != ""
  }

  // ---------- helpers ----------

  /**
   * `_validate_upload` followed by the size check: the content type is
   * examined first, then the length. None means the upload is acceptable.
   */
  function CheckUpload(upload: Upload): (r: Option<string>)
    ensures r == Some(BAD_MIME) <==> upload.content_type !in ALLOWED_MIME
    ensures r == Some(TOO_LARGE) <==> upload.content_type in ALLOWED_MIME && upload.size > MAX_FILE_SIZE
    ensures r.None? <==> upload.content_type in ALLOWED_MIME && upload.size <= MAX_FILE_SIZE
  {
    if upload.content_type !in ALLOWED_MIME then Some(BAD_MIME)
    else if upload.size > MAX_FILE_SIZE then Some(TOO_LARGE)
    else None
  }

  function SessionCookie(sid: string): Cookie {
    Cookie(SESSION_COOKIE, sid, SESSION_MAX_AGE, true, "lax")
  }

  /**
   * `_get_or_set_session_id`: a non-empty `session_id` cookie is kept and no
   * cookie is set; otherwise the fresh token becomes the session id and is
   * set as a 30-day, HTTP-only, SameSite=Lax cookie.
   */
  function SessionId(cookies: map<string, string>, token: string): (r: (string, Option<Cookie>))
    ensures SESSION_COOKIE in cookies && cookies[SESSION_COOKIE] != "" ==> r == (cookies[SESSION_COOKIE], None)
    ensures !(SESSION_COOKIE in cookies && cookies[SESSION_COOKIE] != "") ==> r == (token, Some(SessionCookie(token)))
  {
    if SESSION_COOKIE in cookies && cookies[SESSION_COOKIE] != "" then (cookies[SESSION_COOKIE], None)
    else (token, Some(SessionCookie(token)))
  }

  /** Once the browser stores the cookie it was sent, later requests keep that session. */
  lemma SessionSticky(cookies: map<string, string>, token: string, later: string)
    requires token != ""
    ensures var (sid, _) := SessionId(cookies, token);
      SessionId(cookies[SESSION_COOKIE := sid], later) == (sid, None)
  {
  }

  /** Where a session's result file is served. */
  function ResultPath(sid: string, result_name: string): string {
    RESULTS_PREFIX + sid + "/" + result_name
  }

  /**
   * The route `/temp/results/{sid}/{filename}` the application registers:
   * each parameter matches one non-empty path segment.
   */
  function ParseResultPath(path: string): Option<(string, string)> {
    if |path| < |RESULTS_PREFIX| || path[..|RESULTS_PREFIX|] != RESULTS_PREFIX then None
    else
      match SplitOnce(path[|RESULTS_PREFIX|..], '/')
      case None => None
      case Some((sid, file)) => if sid == "" || file == "" || '/' in file then None else Some((sid, file))
  }

  /** A result URL routes back to the session and file it was built from. */
  lemma ResultPathRoutesBack(sid: string, result_name: string)
    requires sid != "" && result_name != ""
    requires '/' !in sid && '/' !in result_name
    ensures ParseResultPath(ResultPath(sid, result_name)) == Some((sid, result_name))
  {
    var p := ResultPath(sid, result_name);
    assert p[..|RESULTS_PREFIX|] == RESULTS_PREFIX;
    assert p[|RESULTS_PREFIX|..] == sid + ['/'] + result_name;
    SplitOnceJoin(sid, '/', result_name);
  }

  /**
   * `_make_card_payload`: the card dict the endpoints store and return.
   * Status defaults to "processed" and scores to `{}` when the detector
   * leaves them out; the model field is the weights file name.
   */
  function CardPayload(card_id: string, sid: string, result_name: string, res: DetectOutput): (f: CardFields)
    ensures f.card_id == card_id
    ensures f.detected_image_url == ResultPath(sid, result_name)
    ensures f.status == Some(if res.status.Some? then res.status.value else "processed")
    ensures f.scores == Some(if res.scores.Some? then res.scores.value else map[])
    ensures f.updated_at == res.updated_at
    ensures f.model == Some(MODEL_NAME)
  {
    CardFields(card_id, ResultPath(sid, result_name), Some(res.status.GetOr("processed")),
               Some(res.scores.GetOr(map[])), res.updated_at, Some(MODEL_NAME))
  }

  /** The detector named its result file. */
  predicate HasResultName(res: DetectOutput) {
    res.result_name.Some? && res.result_name.value != ""
  }

  /**
   * The result file name the handler goes on with; None is the 500 reply.
   * A non-empty `result_name` is used as given. Otherwise the handler falls
   * back on `Path(res.get("detected_image_path", ""))` and takes its last
   * component when the path exists. A missing or empty path is `Path("")`,
   * the current directory: it always exists and its name is "". Whether any
   * other path exists is the filesystem's answer, `pathExists`.
   */
  function ResultNameOf(res: DetectOutput, pathExists: bool): (r: Option<string>)
    ensures HasResultName(res) ==> r == res.result_name
    ensures !HasResultName(res) ==> (r.None? <==> res.detected_image_path.GetOr("") != "" && !pathExists)
    ensures !HasResultName(res) && res.detected_image_path.GetOr("") == "" ==> r == Some("")
    ensures !HasResultName(res) && r.Some? ==> '/' !in r.value
    ensures !HasResultName(res) && res.detected_image_path.GetOr("") != "" && pathExists ==>
      r == Some(BaseName(res.detected_image_path.value))
    ensures !HasResultName(res) && res.detected_image_path.GetOr("") != "" && !pathExists ==> r.None?
  {
    if HasResultName(res) then res.result_name
    else
      var path := res.detected_image_path.GetOr("");
      if path == "" || pathExists then Some(BaseName(path)) else None
  }

  /** Stores the payload and replies with it; a rejected upsert is an unhandled exception (500). */
  function Persist(db: Db, payload: CardFields, code: int, cookie: Option<Cookie>, callback: Option<string>): (h: Handled)
    ensures payload.updated_at.Some? ==>
      && StoredAs(h, db, payload.card_id)
      && h.reply.body.card == StoredCard(payload)
      && h.reply.code == code && h.reply.cookie == cookie && h.callback == callback
    ensures payload.updated_at.None? ==> h == Refuse(db, 500, SERVER_ERROR)
  {
    match UpsertCard(db, payload)
    case Err(_) => Refuse(db, 500, SERVER_ERROR)
    case Ok(after) => Handled(Reply(code, CardBody(StoredCard(payload)), cookie), after, callback)
  }

  // ---------- endpoints ----------

  /** The card a successful handler stored under `card_id`, read back. */
  ghost predicate StoredAs(h: Handled, db: Db, card_id: string) {
    && h.reply.body.CardBody?
    && h.reply.body.card.card_id == card_id
    && GetCard(h.db, card_id) == Some(h.reply.body.card)
    && h.db.keys == db.keys
    && h.db.cards.Keys == db.cards.Keys + {card_id}
    && (forall id :: id in db.cards && id != card_id ==> h.db.cards[id] == db.cards[id])
  }

  /**
   * `POST /cards`: validate, take or mint the session, mint a card id, run
   * the detector, store and return the card with status 201.
   */
  function CreateCard(db: Db, cookies: map<string, string>, upload: Upload, boxes: seq<Detection>, env: Env): (h: Handled)
    ensures h.reply.code == 201 || h.reply.code == 400
    ensures h.reply.code == 400 <==> CheckUpload(upload).Some?
    ensures h.reply.code == 400 ==> h == Refuse(db, 400, CheckUpload(upload).value)
    ensures h.reply.code == 201 ==> StoredAs(h, db, TokenHex(env.cardBytes))
    ensures h.reply.code == 201 ==> h.reply.cookie == SessionId(cookies, env.sessionToken).1
    ensures h.reply.code == 201 ==> h.reply.body.card.status == StatusOf(FoldScores(boxes))
    ensures h.reply.code == 201 ==> h.reply.body.card.scores == FoldScores(boxes)
    ensures h.reply.code == 201 ==> h.reply.body.card.model == MODEL_NAME
    ensures h.reply.code == 201 ==> h.reply.body.card.updated_at == env.utcnow
    ensures h.reply.code == 201 ==>
      h.reply.body.card.detected_image_url
      == ResultPath(SessionId(cookies, env.sessionToken).0, ResultNameFor(TokenHex(env.cardBytes)))
    ensures h.callback.None?
  {
    match CheckUpload(upload)
    case Some(detail) => Refuse(db, 400, detail)
    case None =>
      var (sid, cookie) := SessionId(cookies, env.sessionToken);
      var card_id := TokenHex(env.cardBytes);
      var res := Detect(boxes, card_id, env.utcnow);
      match ResultNameOf(res, env.resultPathExists)
      case None => Refuse(db, 500, OUTPUT_MISSING)
      case Some(result_name) =>
        Persist(db, CardPayload(card_id, sid, result_name, res), 201, cookie, None)
  }

  /** `POST /cards/{card_id}/apikey`: issues a key for the id, whether or not the card exists. */
  function IssueApiKey(db: Db, card_id: string, env: Env): (h: Handled)
    ensures h.reply.code == 200 <==> Sha256(env.keyToken) !in db.keys
    ensures h.reply.code == 200 ==> h.reply.body == KeyBody(Issued(env.keyToken, card_id, env.now + KEY_TTL as real))
    ensures h.reply.code == 200 ==> VerifyApiKey(h.db, env.keyToken, card_id, env.now)
    ensures h.reply.code != 200 ==> h == Refuse(db, 500, SERVER_ERROR)
    ensures h.reply.code == 200 ==>
      h.db.keys == db.keys[Sha256(env.keyToken) := KeyRow(card_id, env.now + KEY_TTL as real, 0)]
    ensures h.db.cards == db.cards
  {
    match CreateApiKey(db, card_id, KEY_TTL, env.keyToken, env.now)
    case Err(_) => Refuse(db, 500, SERVER_ERROR)
    case Ok((after, issued)) => Handled(Reply(200, KeyBody(issued), None), after, None)
  }

  /**
   * `POST /cards/{card_id}/replace`: the key is checked before the upload;
   * the card's row is overwritten with the new result and a fresh
   * `updated_at`. The key is not marked used.
   */
  function ReplaceCard(
    db: Db, card_id: string, api_key: Option<string>, callback_url: Option<string>,
    cookies: map<string, string>, upload: Upload, boxes: seq<Detection>, env: Env): (h: Handled)
    ensures h.reply.code == 401 <==> !Present(api_key) || !VerifyApiKey(db, api_key.value, card_id, env.now)
    ensures h.reply.code == 400 <==> Present(api_key) && VerifyApiKey(db, api_key.value, card_id, env.now) && CheckUpload(upload).Some?
    ensures h.reply.code == 200 <==> Present(api_key) && VerifyApiKey(db, api_key.value, card_id, env.now) && CheckUpload(upload).None?
    ensures h.reply.code != 200 ==> h.db == db && h.callback.None?
    ensures h.reply.code == 401 ==> h == Refuse(db, 401, if !Present(api_key) then MISSING_KEY else INVALID_KEY)
    ensures h.reply.code == 400 ==> h == Refuse(db, 400, CheckUpload(upload).value)
    ensures h.reply.code == 200 ==> StoredAs(h, db, card_id) && h.reply.body.card.updated_at == env.utcnow
    ensures h.reply.code == 200 ==> h.reply.body.card.scores == FoldScores(boxes)
    ensures h.reply.code == 200 ==> h.reply.body.card.status == StatusOf(FoldScores(boxes))
    ensures h.reply.code == 200 ==> h.reply.body.card.model == MODEL_NAME
    ensures h.reply.code == 200 ==>
      h.reply.body.card.detected_image_url == ResultPath(SessionId(cookies, env.sessionToken).0, ResultNameFor(card_id))
    ensures h.reply.code == 200 ==> h.reply.cookie == SessionId(cookies, env.sessionToken).1
    ensures h.reply.code == 200 ==> h.callback == if Present(callback_url) then callback_url else None
  {
    if !Present(api_key) then Refuse(db, 401, MISSING_KEY)
    else if !VerifyApiKey(db, api_key.value, card_id, env.now) then Refuse(db, 401, INVALID_KEY)
    else
      match CheckUpload(upload)
      case Some(detail) => Refuse(db, 400, detail)
      case None =>
        var (sid, cookie) := SessionId(cookies, env.sessionToken);
        var res := Detect(boxes, card_id, env.utcnow);
        match ResultNameOf(res, env.resultPathExists)
        case None => Refuse(db, 500, OUTPUT_MISSING)
        case Some(result_name) =>
          var payload := CardPayload(card_id, sid, result_name, res).(updated_at := Some(env.utcnow));
          Persist(db, payload, 200, cookie, if Present(callback_url) then callback_url else None)
  }

  /** The cache-busting query the key-only replace appends: `?v=` and six hex digits. */
  function VersionQuery(nonce: Bytes3): (q: string)
    ensures |q| == 9 && q[..3] == "?v="
    ensures forall i :: 3 <= i < 9 ==> IsLowerHex(q[i])
  {
    "?v=" + TokenHex(nonce)
  }

  /**
   * `POST /cards/replace`: the card is the one the key is bound to. An
   * unknown, expired or used key, or one bound to an empty id, is refused.
   */
  function ReplaceByKey(
    db: Db, api_key: Option<string>, callback_url: Option<string>,
    cookies: map<string, string>, upload: Upload, boxes: seq<Detection>, env: Env): (h: Handled)
    ensures h.reply.code == 401 <==> !Present(api_key) || !Present(GetCardIdByApiKey(db, api_key.value, env.now))
    ensures h.reply.code == 400 <==> Present(api_key) && Present(GetCardIdByApiKey(db, api_key.value, env.now)) && CheckUpload(upload).Some?
    ensures h.reply.code == 200 <==> Present(api_key) && Present(GetCardIdByApiKey(db, api_key.value, env.now)) && CheckUpload(upload).None?
    ensures h.reply.code != 200 ==> h.db == db && h.callback.None?
    ensures h.reply.code == 401 ==> h == Refuse(db, 401, if !Present(api_key) then MISSING_KEY else INVALID_KEY)
    ensures h.reply.code == 400 ==> h == Refuse(db, 400, CheckUpload(upload).value)
    ensures h.reply.code == 200 ==> StoredAs(h, db, GetCardIdByApiKey(db, api_key.value, env.now).value)
    ensures h.reply.code == 200 ==> VerifyApiKey(db, api_key.value, h.reply.body.card.card_id, env.now)
    ensures h.reply.code == 200 ==> h.reply.body.card.updated_at == env.utcnow
    ensures h.reply.code == 200 ==> h.reply.body.card.scores == FoldScores(boxes)
    ensures h.reply.code == 200 ==> h.reply.body.card.status == StatusOf(FoldScores(boxes))
    ensures h.reply.code == 200 ==> h.reply.body.card.model == MODEL_NAME
    ensures h.reply.code == 200 ==> h.reply.cookie == SessionId(cookies, env.sessionToken).1
    ensures h.reply.code == 200 ==> h.callback == if Present(callback_url) then callback_url else None
  {
    if !Present(api_key) then Refuse(db, 401, MISSING_KEY)
    else
      var found := GetCardIdByApiKey(db, api_key.value, env.now);
      if !Present(found) then Refuse(db, 401, INVALID_KEY)
      else
        var card_id := found.value;
        LookupAgreesWithVerify(db, api_key.value, card_id, env.now);
        match CheckUpload(upload)
        case Some(detail) => Refuse(db, 400, detail)
        case None =>
          var (sid, cookie) := SessionId(cookies, env.sessionToken);
          var res := Detect(boxes, card_id, env.utcnow);
          match ResultNameOf(res, env.resultPathExists)
          case None => Refuse(db, 500, OUTPUT_MISSING)
          case Some(result_name) =>
            var base := CardPayload(card_id, sid, result_name, res);
            var payload := base.(updated_at := Some(env.utcnow),
                                 detected_image_url := base.detected_image_url + VersionQuery(env.nonceBytes));
            Persist(db, payload, 200, cookie, if Present(callback_url) then callback_url else None)
  }

  /** The page size `GET /cards` uses when the request gives no `limit`. */
  const DEFAULT_LIMIT: int := 50

  /**
   * The body of `GET /cards`: the listing, and a cursor that is always
   * null. `limit` is None when the query string has no `limit`. A limit
   * the driver cannot bind is an unhandled exception (500).
   */
  method ListCardsEndpoint(db: Db, limit: Option<int>, cursor: Option<string>) returns (h: Handled)
    ensures h.db == db && h.callback.None?
    ensures h.reply.code == 200 || h.reply.code == 500
    ensures h.reply.code == 500 <==> !FitsInt64(limit.GetOr(DEFAULT_LIMIT))
    ensures h.reply.code == 500 ==> h == Refuse(db, 500, SERVER_ERROR)
    ensures limit.None? ==> h.reply.code == 200
    ensures h.reply.code == 200 ==> h.reply.body.ListBody? && h.reply.body.next_cursor.None?
    ensures h.reply.code == 200 ==> |h.reply.body.items| == LimitBound(limit.GetOr(DEFAULT_LIMIT), |db.cards|)
    ensures h.reply.code == 200 && limit.None? ==> |h.reply.body.items| <= DEFAULT_LIMIT
    ensures h.reply.code == 200 ==> AllStored(db, h.reply.body.items) && DistinctIds(h.reply.body.items)
    ensures h.reply.code == 200 ==> NewestFirst(h.reply.body.items) && NoNewerOmitted(db, h.reply.body.items)
  {
    var listed := ListCards(db, limit.GetOr(DEFAULT_LIMIT));
    match listed
    case Err(_) =>
      h := Refuse(db, 500, SERVER_ERROR);
    case Ok(items) =>
      h := Handled(Reply(200, ListBody(items, None), None), db, None);
  }

  /** `GET /cards/{card_id}`: the stored card, or 404. */
  function GetCardEndpoint(db: Db, card_id: string): (h: Handled)
    ensures h.db == db && h.callback.None?
    ensures h.reply.code == 404 <==> card_id !in db.cards
    ensures h.reply.code == 200 ==> h.reply.body == CardBody(GetCard(db, card_id).value)
    ensures h.reply.code == 200 || h.reply.code == 404
  {
    match GetCard(db, card_id)
    case None => Refuse(db, 404, NOT_FOUND)
    case Some(card) => Handled(Reply(200, CardBody(card), None), db, None)
  }

  /** The placeholder a reservation stores: PENDING, no image, no scores. */
  function PendingFields(card_id: string, utcnow: string): CardFields {
    CardFields(card_id, "", Some("PENDING"), Some(map[]), Some(utcnow), Some(MODEL_NAME))
  }

  /** A reservation stored a PENDING placeholder under `card_id` and left the other cards alone. */
  ghost predicate Reserved(h: Handled, db: Db, card_id: string, utcnow: string) {
    && GetCard(h.db, card_id) == Some(Card(card_id, "", "PENDING", map[], utcnow, MODEL_NAME))
    && h.db.cards.Keys == db.cards.Keys + {card_id}
    && (forall id :: id in db.cards && id != card_id ==> h.db.cards[id] == db.cards[id])
  }

  /** `POST /cards/gen_card`: reserves a fresh card id without a key. */
  function GenCard(db: Db, env: Env): (h: Handled)
    ensures h.reply.code == 200
    ensures h.reply.body == ReservedBody(TokenHex(env.cardBytes), RESERVED)
    ensures Reserved(h, db, TokenHex(env.cardBytes), env.utcnow)
    ensures h.db.keys == db.keys
  {
    var card_id := TokenHex(env.cardBytes);
    var after := UpsertCard(db, PendingFields(card_id, env.utcnow)).value;
    Handled(Reply(200, ReservedBody(card_id, RESERVED), None), after, None)
  }

  /**
   * `POST /cards/genkey`: reserves a fresh card id and issues a key bound
   * to it. When the key cannot be stored the placeholder stays.
   */
  function GenKey(db: Db, env: Env): (h: Handled)
    ensures Reserved(h, db, TokenHex(env.cardBytes), env.utcnow)
    ensures h.reply.code == 200 || h.reply.code == 500
    ensures h.reply.code == 200 <==> Sha256(env.keyToken) !in db.keys
    ensures h.reply.code == 200 ==> h.reply.body == KeyBody(Issued(env.keyToken, TokenHex(env.cardBytes), env.now + KEY_TTL as real))
    ensures h.reply.code == 200 ==> VerifyApiKey(h.db, env.keyToken, TokenHex(env.cardBytes), env.now)
    ensures h.reply.code == 200 ==>
      h.db.keys == db.keys[Sha256(env.keyToken) := KeyRow(TokenHex(env.cardBytes), env.now + KEY_TTL as real, 0)]
    ensures h.reply.code != 200 ==> h.db.keys == db.keys
    ensures h.reply.code != 200 ==> h.reply == Reply(500, ErrorBody(SERVER_ERROR), None) && h.callback.None?
  {
    var card_id := TokenHex(env.cardBytes);
    var reserved := UpsertCard(db, PendingFields(card_id, env.utcnow)).value;
    match CreateApiKey(reserved, card_id, KEY_TTL, env.keyToken, env.now)
    case Err(_) => Refuse(reserved, 500, SERVER_ERROR)
    case Ok((after, issued)) => Handled(Reply(200, KeyBody(issued), None), after, None)
  }

  /** `POST /cards/gen_cardkey`: its handler body is the same as genkey's. */
  function GenCardKey(db: Db, env: Env): (h: Handled)
    ensures Reserved(h, db, TokenHex(env.cardBytes), env.utcnow)
    ensures h.reply.code == 200 || h.reply.code == 500
    ensures h.reply.code == 200 <==> Sha256(env.keyToken) !in db.keys
    ensures h.reply.code == 200 ==> h.reply.body == KeyBody(Issued(env.keyToken, TokenHex(env.cardBytes), env.now + KEY_TTL as real))
    ensures h.reply.code == 200 ==> VerifyApiKey(h.db, env.keyToken, TokenHex(env.cardBytes), env.now)
    ensures h.reply.code == 200 ==>
      h.db.keys == db.keys[Sha256(env.keyToken) := KeyRow(TokenHex(env.cardBytes), env.now + KEY_TTL as real, 0)]
    ensures h.reply.code != 200 ==> h.db.keys == db.keys
    ensures h.reply.code != 200 ==> h.reply == Reply(500, ErrorBody(SERVER_ERROR), None) && h.callback.None?
  {
    GenKey(db, env)
  }
}

=== FILE: client.dfy ===
/**
 * The pure parts of frontend/static/assets/app.js: the cache-buster, the
 * cURL command, the key field's state and the routing of an upload,
 * including the fallback to a plain create after a 401. The DOM, the
 * clipboard and alerts are outside the model; the server is a function
 * from the request the client sends to the HTTP status it answers with.
 */
module Client {
  import opened Wrappers
  import opened Text
  import opened Uri
  import Config

  /** The client-side size limit, in bytes (20 MiB). */
  const CLIENT_MAX_SIZE: int := 20 * 1024 * 1024

  // ---------- cache-buster ----------

  /**
   * `withCacheBuster(url)` at time `ts` (milliseconds): appends `_=ts` as a
   * new query when the URL has none, as a further parameter when it has one.
   */
  function WithCacheBuster(url: string, ts: nat): (r: string)
    ensures |r| > |url| + 3 && r[..|url|] == url
    ensures '?' in url ==> r[|url|..|url| + 3] == "&_="
    ensures '?' !in url ==> r[|url|..|url| + 3] == "?_="
    ensures forall i :: |url| + 3 <= i < |r| ==> IsDigit(r[i])
  {
    (if '?' in url then url + "&_=" else url + "?_=") + Decimal(ts)
  }

  /** The appended parameter reads back as the timestamp. */
  lemma CacheBusterCarriesTimestamp(url: string, ts: nat)
    ensures DecimalValue(WithCacheBuster(url, ts)[|url| + 3..]) == ts
  {
    assert WithCacheBuster(url, ts)[|url| + 3..] == Decimal(ts);
    DecimalRoundTrip(ts);
  }

  /**
   * The cache-buster never stacks a second '?': the result has exactly one
   * when the URL had none, and otherwise as many as the URL.
   */
  lemma CacheBusterKeepsOneQuery(url: string, ts: nat)
    ensures Count(WithCacheBuster(url, ts), '?') == if Count(url, '?') == 0 then 1 else Count(url, '?')
  {
    var d := Decimal(ts);
    var sep := if '?' in url then "&_=" else "?_=";
    assert WithCacheBuster(url, ts) == url + (sep + d);
    CountConcat(url, sep + d, '?');
    CountConcat(sep, d, '?');
    assert Count(sep, '?') == if '?' in url then 0 else 1 by {
      assert sep == [sep[0]] + sep[1..];
      assert sep[1..] == [sep[1]] + sep[2..];
    }
  }

  // ---------- requests ----------

  /** A request the upload handler can send. */
  datatype Call =
    | CreateCall
    | ReplaceByIdCall(card_id: string, api_key: string)
    | ReplaceByKeyCall(api_key: string)

  /** The path a call is sent to. */
  function RequestPath(call: Call): string {
    match call
    case CreateCall => "/cards"
    case ReplaceByIdCall(card_id, _) => "/cards/" + EncodeUriComponent(card_id) + "/replace"
    case ReplaceByKeyCall(_) => "/cards/replace"
  }

  // ---------- cURL ----------

  const FILE_ARG: string := "\"/path/to/file.jpg\""

  /** The shape of every command `buildCurlCommand` writes. */
  function CurlCommand(url: string, api_key: string): string {
    "curl -X POST \"" + url + "\" -H \"x-api-key: " + api_key + "\" -F \"image=@" + FILE_ARG + "\""
  }

  /**
   * `buildCurlCommand(apiKey, cardId)`: a POST of the image to the per-card
   * replace URL when there is a card id, and to the key-only replace URL
   * otherwise, with the key in the `x-api-key` header.
   */
  function BuildCurlCommand(origin: string, api_key: string, card_id: string): (cmd: string)
    ensures card_id != "" ==> cmd == CurlCommand(origin + RequestPath(ReplaceByIdCall(card_id, api_key)), api_key)
    ensures card_id == "" ==> cmd == CurlCommand(origin + RequestPath(ReplaceByKeyCall(api_key)), api_key)
  {
    var call := if card_id != "" then ReplaceByIdCall(card_id, api_key) else ReplaceByKeyCall(api_key);
    CurlCommand(origin + RequestPath(call), api_key)
  }

  // ---------- the key field ----------

  /**
   * The API-key input and the elements that follow it: the value, the
   * `data-card-id` attribute (None when deleted), read-only flag, tooltip,
   * the Replace URL box and whether the copy-cURL button is enabled.
   */
  datatype KeyField = KeyField(
    value: string,
    cardId: Option<string>,
    readOnly: bool,
    title: string,
    replaceUrl: string,
    replaceUrlShown: bool,
    copyEnabled: bool)

  /** `hasKey()`: the input holds something other than white space. */
  predicate HasKey(k: KeyField) {
    Trim(k.value) != ""
  }

  /** JavaScript truthiness of the card id attribute. */
  predicate HasCardId(k: KeyField) {
    k.cardId.Some? && k.cardId.value != ""
  }

  /** `clearKey()`: whatever the field held, it ends empty, editable and without a card. */
  function ClearKey(k: KeyField): (r: KeyField)
    ensures r.value == "" && r.cardId.None? && !r.readOnly
    ensures !r.copyEnabled && !r.replaceUrlShown && r.replaceUrl == ""
  {
    KeyField("", None, false, "", "", false, false)
  }

  /** Once the key is cleared, the next upload is a plain create. */
  lemma ClearedKeyCreates(k: KeyField)
    ensures Route(ClearKey(k)) == CreateCall
  {
  }

  /** `setKey(apiKey, cardId)` after a key has been generated. */
  function SetKey(origin: string, api_key: string, card_id: string): (r: KeyField)
    ensures r.value == api_key && r.readOnly
    ensures r.cardId == if card_id != "" then Some(card_id) else None
    ensures r.copyEnabled <==> api_key != ""
    ensures r.replaceUrlShown <==> card_id != ""
    ensures card_id != "" ==> r.replaceUrl == origin + RequestPath(ReplaceByIdCall(card_id, api_key))
  {
    KeyField(api_key, if card_id != "" then Some(card_id) else None, true, "Click to copy",
             if card_id != "" then origin + RequestPath(ReplaceByIdCall(card_id, api_key)) else "",
             card_id != "", api_key != "")
  }

  /**
   * A click on the copy-cURL button: nothing while the button is disabled
   * (a disabled button fires no click) or the field holds no key, otherwise
   * the command for the trimmed key and the card id (or "").
   */
  function CopyCurl(origin: string, k: KeyField): (cmd: Option<string>)
    ensures cmd.Some? <==> k.copyEnabled && HasKey(k)
    ensures cmd.Some? && HasCardId(k) ==>
      cmd.value == CurlCommand(origin + RequestPath(ReplaceByIdCall(k.cardId.value, Trim(k.value))), Trim(k.value))
    ensures cmd.Some? && !HasCardId(k) ==>
      cmd.value == CurlCommand(origin + RequestPath(ReplaceByKeyCall(Trim(k.value))), Trim(k.value))
  {
    var api_key := Trim(k.value);
    if !k.copyEnabled || api_key == "" then None
    else Some(BuildCurlCommand(origin, api_key, if k.cardId.Some? then k.cardId.value else ""))
  }

  // ---------- upload routing ----------

  /**
   * The first request of an upload: per-card replace when there is a key
   * and a card id, key-only replace when there is a key alone, create
   * otherwise. The key is sent trimmed.
   */
  function Route(k: KeyField): (call: Call)
    ensures call.CreateCall? <==> !HasKey(k)
    ensures call.ReplaceByIdCall? <==> HasKey(k) && HasCardId(k)
    ensures call.ReplaceByIdCall? ==> call == ReplaceByIdCall(k.cardId.value, Trim(k.value))
    ensures call.ReplaceByKeyCall? ==> call == ReplaceByKeyCall(Trim(k.value))
  {
    if HasKey(k) then
      if HasCardId(k) then ReplaceByIdCall(k.cardId.value, Trim(k.value)) else ReplaceByKeyCall(Trim(k.value))
    else CreateCall
  }

  /**
   * While the button is enabled, it offers a command exactly when an upload
   * would use a key, and the command targets the very request that upload
   * would send.
   */
  lemma CurlMatchesUpload(origin: string, k: KeyField)
    ensures CopyCurl(origin, k).Some? <==> k.copyEnabled && !Route(k).CreateCall?
    ensures CopyCurl(origin, k).Some? ==>
      CopyCurl(origin, k).value == CurlCommand(origin + RequestPath(Route(k)), Route(k).api_key)
  {
  }

  /** What the page shows once an upload is over. */
  datatype Shown =
    | TooLarge
    | Failed(status: int)
    | AddedCard
    | UpdatedCard

  /** The requests sent, the key field afterwards and what is shown. */
  datatype Flow = Flow(calls: seq<Call>, key: KeyField, shown: Shown)

  predicate Succeeded(status: int) {
    200 <= status <= 299
  }

  /** The end of the handler: a non-2xx status is an error; a replace clears the key. */
  function Finish(calls: seq<Call>, k: KeyField, status: int, usedReplace: bool): (f: Flow)
    ensures f.calls == calls
    ensures f.shown.Failed? <==> !Succeeded(status)
    ensures f.shown.Failed? ==> f.shown.status == status
    ensures f.shown.Failed? ==> f.key == k
    ensures f.shown.UpdatedCard? <==> Succeeded(status) && usedReplace
    ensures f.shown.UpdatedCard? ==> f.key == ClearKey(k)
    ensures f.shown.AddedCard? <==> Succeeded(status) && !usedReplace
    ensures f.shown.AddedCard? ==> f.key == k
  {
    if !Succeeded(status) then Flow(calls, k, Failed(status))
    else if usedReplace then Flow(calls, ClearKey(k), UpdatedCard)
    else Flow(calls, k, AddedCard)
  }

  /**
   * The upload handler: reject an oversized file before any request; send
   * the routed request; after a 401 from a replace, clear the key and send
   * the same file as a create, treating the outcome as a create.
   */
  function UploadFlow(k: KeyField, size: nat, server: Call -> int): (f: Flow)
    ensures size > CLIENT_MAX_SIZE ==> f == Flow([], k, TooLarge)
    ensures size <= CLIENT_MAX_SIZE ==> 1 <= |f.calls| <= 2 && f.calls[0] == Route(k)
    ensures size <= CLIENT_MAX_SIZE && !Route(k).CreateCall? && server(Route(k)) == 401 ==>
      f.calls == [Route(k), CreateCall] && f.key == ClearKey(k) && !f.shown.UpdatedCard?
    ensures f.shown.UpdatedCard? ==> f.calls == [Route(k)] && !Route(k).CreateCall? && f.key == ClearKey(k)
    ensures f.shown.AddedCard? ==> f.calls[|f.calls| - 1] == CreateCall
    ensures f.shown.Failed? ==> f.shown.status == server(f.calls[|f.calls| - 1]) && !Succeeded(f.shown.status)
    ensures size <= CLIENT_MAX_SIZE ==> !f.shown.TooLarge?
    ensures size <= CLIENT_MAX_SIZE && (Route(k).CreateCall? || server(Route(k)) != 401) ==> f.calls == [Route(k)]
    ensures size <= CLIENT_MAX_SIZE ==> (f.shown.Failed? <==> !Succeeded(server(f.calls[|f.calls| - 1])))
    ensures size <= CLIENT_MAX_SIZE && !Route(k).CreateCall? && Succeeded(server(Route(k))) ==>
      f.shown.UpdatedCard? && f.key == ClearKey(k)
    ensures size <= CLIENT_MAX_SIZE && f.calls[|f.calls| - 1] == CreateCall && Succeeded(server(CreateCall)) ==>
      f.shown.AddedCard?
    ensures Route(k).CreateCall? ==> f.key == k
    ensures size <= CLIENT_MAX_SIZE && !Route(k).CreateCall? && server(Route(k)) != 401 && !Succeeded(server(Route(k))) ==>
      f.key == k
  {
    if size > CLIENT_MAX_SIZE then Flow([], k, TooLarge)
    else
      var first := Route(k);
      var status := server(first);
      if first.CreateCall? then Finish([first], k, status, false)
      else if status == 401 then Finish([first, CreateCall], ClearKey(k), server(CreateCall), false)
      else Finish([first], k, status, true)
  }

  /**
   * After "Generate Key" stores the server's key and card id, the next
   * upload goes to that card's replace URL with that key, the URL the
   * Replace box shows.
   */
  lemma GeneratedKeyRoutesToCard(origin: string, api_key: string, card_id: string)
    requires api_key != "" && card_id != ""
    requires !IsJsSpace(api_key[0]) && !IsJsSpace(api_key[|api_key| - 1])
    ensures Route(SetKey(origin, api_key, card_id)) == ReplaceByIdCall(card_id, api_key)
    ensures SetKey(origin, api_key, card_id).replaceUrl == origin + RequestPath(Route(SetKey(origin, api_key, card_id)))
  {
  }

  /**
   * A key typed by hand after `clearKey` is used by the upload, but the
   * copy button stays disabled until the next `setKey`.
   */
  lemma TypedKeyNotCopyable(origin: string, k: KeyField, typed: string)
    requires Trim(typed) != ""
    ensures var after := ClearKey(k).(value := typed);
      Route(after) == ReplaceByKeyCall(Trim(typed)) && CopyCurl(origin, after).None?
  {
  }

  /** A segment free of '/' and '?' between "/cards/" and "/replace" parses back out. */
  lemma SegmentBetween(seg: string)
    requires '/' !in seg && '?' !in seg
    ensures var path := "/cards/" + seg + "/replace";
      && |path| > 7 && path[..7] == "/cards/"
      && SplitOnce(path[7..], '/') == Some((seg, "replace"))
      && '?' !in path
  {
    var tail := seg + ['/'] + "replace";
    var path := "/cards/" + seg + "/replace";
    assert path == "/cards/" + tail;
    assert path[7..] == tail;
    SplitOnceJoin(seg, '/', "replace");
    assert forall i :: 0 <= i < |path| ==> path[i] == if i < 7 then "/cards/"[i] else tail[i - 7];
    assert forall i :: 0 <= i < |tail| ==> tail[i] == if i < |seg| then seg[i] else "/replace"[i - |seg|];
  }

  /**
   * The per-card replace path splits into "/cards/", the encoded card id as
   * a single segment, and "replace", as the server's
   * `/cards/{card_id}/replace` route expects; it carries no query.
   */
  lemma ReplacePathIsOneSegment(card_id: string, api_key: string)
    ensures var path := RequestPath(ReplaceByIdCall(card_id, api_key));
      && |path| > 7 && path[..7] == "/cards/"
      && SplitOnce(path[7..], '/') == Some((EncodeUriComponent(card_id), "replace"))
      && '?' !in path
  {
    EncodedIsOneSegment(card_id);
    SegmentBetween(EncodeUriComponent(card_id));
  }

  /** The client and the server reject the same sizes. */
  lemma ClientLimitMatchesServer()
    ensures CLIENT_MAX_SIZE == Config.MAX_FILE_SIZE
  {
  }
}

=== FILE: config.dfy ===
/** The constants of backend/config.py and the model file name derived from them. */
module Config {

  /** Minimum spaghetti confidence that marks a print as failed. */
  const CONF_THRESHOLD: real := 0.2

  /** Lifetime of an API key, in seconds. */
  const KEY_TTL: int := 3600

  /** Largest accepted upload, in bytes (20 MiB). */
  const MAX_FILE_SIZE: int := 20 * 1024 * 1024

  /** Content types an upload may declare. */
  const ALLOWED_MIME: set<string> := {"image/jpeg", "image/png"}

  /** Path of the detector weights. */
  const MODEL_PATH: string := "backend/best.pt"

  /** Everything after the last '/', as `os.path.basename` computes it. */
  function BaseName(path: string): (r: string)
    ensures |r| <= |path| && r == path[|path| - |r|..]
    ensures '/' !in r
    ensures |r| < |path| ==> path[|path| - |r| - 1] == '/'
  {
    if |path| == 0 then ""
    else if path[|path| - 1] == '/' then ""
    else BaseName(path[..|path| - 1]) + [path[|path| - 1]]
  }

  /** The identifier recorded as a card's `model` field. */
  const MODEL_NAME: string := BaseName(MODEL_PATH)

  lemma ModelNameIsWeightsFile()
    ensures MODEL_NAME == "best.pt"
  {
  }
}

=== FILE: database.dfy ===
/**
 * The card table and the API-key table of backend/database.py, as two
 * finite maps keyed by their primary keys. SQLite is an ideal map, the JSON
 * encoding of scores is an identity round trip, SHA-256 is an injective
 * function and the clock is a parameter.
 */
module Database {
  import opened Wrappers
  import opened Text
  import opened Schemas

  // ---------- hashing ----------

  /**
   * A SHA-256 digest. The model treats the hash as ideal: distinct inputs
   * give distinct digests. No operation reads a digest's preimage; the
   * constructor argument only makes injectivity hold by construction.
   */
  datatype Digest = Sha256Of(preimage: string)

  function Sha256(s: string): Digest {
    Sha256Of(s)
  }

  lemma Sha256Injective(a: string, b: string)
    ensures Sha256(a) == Sha256(b) ==> a == b
  {
  }

  // ---------- tables ----------

  /** The non-key columns of the `cards` table; `scores` stands for `scores_json`. */
  datatype CardRow = CardRow(
    detected_image_url: string,
    status: string,
    scores: Scores,
    updated_at: string,
    model: string)

  /** The non-key columns of the `apikeys` table. */
  datatype KeyRow = KeyRow(card_id: string, expires_at: real, used: int)

  /** The database: `cards` keyed by card_id, `apikeys` keyed by the key's digest. */
  datatype Db = Db(cards: map<string, CardRow>, keys: map<Digest, KeyRow>)

  const EmptyDb: Db := Db(map[], map[])

  /**
   * Errors the sqlite3 driver raises: constraint violations, and a bound
   * integer parameter outside SQLite's 64-bit range (OverflowError).
   */
  datatype DbError = NotNull(column: string) | DuplicateKey(column: string) | Overflow(parameter: string)

  /** SQLite integers are signed 64-bit; the driver refuses to bind anything wider. */
  predicate FitsInt64(n: int) {
    -0x8000_0000_0000_0000 <= n < 0x8000_0000_0000_0000
  }

  /**
   * The dict handed to `upsert_card`. `card_id` and `detected_image_url`
   * are read with `card[...]`; the others with `card.get(...)`, so `None`
   * stands for a missing key. For `updated_at` it also stands for a key
   * mapped to Python's None, which reads the same way; the other three
   * columns take their defaults only when the key is missing.
   */
  datatype CardFields = CardFields(
    card_id: string,
    detected_image_url: string,
    status: Option<string>,
    scores: Option<Scores>,
    updated_at: Option<string>,
    model: Option<string>)

  /** The row a card occupies. */
  function RowOf(c: Card): CardRow {
    CardRow(c.detected_image_url, c.status, c.scores, c.updated_at, c.model)
  }

  /** The card an accepted upsert of `f` stores, defaults applied. */
  function StoredCard(f: CardFields): (c: Card)
    requires f.updated_at.Some?
    ensures c.card_id == f.card_id && c.detected_image_url == f.detected_image_url
    ensures c.updated_at == f.updated_at.value
    ensures f.status.None? ==> c.status == "PENDING"
    ensures f.status.Some? ==> c.status == f.status.value
    ensures f.scores.None? ==> c.scores == map[]
    ensures f.scores.Some? ==> c.scores == f.scores.value
    ensures f.model.None? ==> c.model == "unknown"
    ensures f.model.Some? ==> c.model == f.model.value
  {
    Card(f.card_id, f.detected_image_url, f.status.GetOr("PENDING"),
         f.scores.GetOr(map[]), f.updated_at.value, f.model.GetOr("unknown"))
  }

  // ---------- cards CRUD ----------

  /**
   * `upsert_card`: INSERT ... ON CONFLICT(card_id) DO UPDATE of the five
   * data columns. A missing `updated_at` violates NOT NULL; the transaction
   * is rolled back and the database is unchanged.
   */
  function UpsertCard(db: Db, f: CardFields): (r: Result<Db, DbError>)
    ensures r.Err? <==> f.updated_at.None?
    ensures r.Ok? ==> r.value.keys == db.keys
    ensures r.Ok? ==> r.value.cards.Keys == db.cards.Keys + {f.card_id}
    ensures r.Ok? ==> r.value.cards[f.card_id] == RowOf(StoredCard(f))
    ensures r.Ok? ==> forall id :: id in db.cards && id != f.card_id ==> r.value.cards[id] == db.cards[id]
  {
    if f.updated_at.None? then Err(NotNull("updated_at"))
    else Ok(db.(cards := db.cards[f.card_id := RowOf(StoredCard(f))]))
  }

  /** `get_card`: the stored row read back as a card, or None. */
  function GetCard(db: Db, card_id: string): (r: Option<Card>)
    ensures r.Some? <==> card_id in db.cards
    ensures r.Some? ==> r.value.card_id == card_id && RowOf(r.value) == db.cards[card_id]
  {
    if card_id in db.cards then
      var row := db.cards[card_id];
      Some(Card(card_id, row.detected_image_url, row.status, row.scores, row.updated_at, row.model))
    else None
  }

  /** Reading a card right after upserting it gives back exactly what was written. */
  lemma GetAfterUpsert(db: Db, f: CardFields, card_id: string)
    requires f.updated_at.Some?
    ensures UpsertCard(db, f).Ok?
    ensures GetCard(UpsertCard(db, f).value, card_id)
         == if card_id == f.card_id then Some(StoredCard(f)) else GetCard(db, card_id)
  {
  }

  /** A sequence of `upsert_card` calls; rejected ones leave the database as it was. */
  function Replay(db: Db, history: seq<CardFields>): Db
    decreases |history|
  {
    if |history| == 0 then db
    else
      var before := Replay(db, history[..|history| - 1]);
      match UpsertCard(before, history[|history| - 1])
      case Ok(after) => after
      case Err(_) => before
  }

  /** The last accepted upsert for `card_id` in a history, if any. */
  function LastUpsert(history: seq<CardFields>, card_id: string): Option<CardFields>
    decreases |history|
  {
    if |history| == 0 then None
    else
      var f := history[|history| - 1];
      if f.card_id == card_id && f.updated_at.Some? then Some(f)
      else LastUpsert(history[..|history| - 1], card_id)
  }

  /**
   * Starting from an empty store, `get_card` returns None for an id no
   * accepted upsert named, and otherwise the fields of the last one.
   */
  lemma {:induction false} GetReturnsLastUpsert(history: seq<CardFields>, card_id: string)
    ensures LastUpsert(history, card_id).Some? ==> LastUpsert(history, card_id).value.updated_at.Some?
    ensures GetCard(Replay(EmptyDb, history), card_id)
         == match LastUpsert(history, card_id)
            case None => None
            case Some(f) => Some(StoredCard(f))
  {
    if |history| > 0 {
      var f := history[|history| - 1];
      GetReturnsLastUpsert(history[..|history| - 1], card_id);
      if f.updated_at.Some? {
        GetAfterUpsert(Replay(EmptyDb, history[..|history| - 1]), f, card_id);
      }
    }
  }

  // ---------- list_cards ----------

  /** How many rows `LIMIT limit` lets through out of `n`; SQLite reads a negative limit as none. */
  function LimitBound(limit: int, n: nat): (k: nat)
    ensures k <= n
    ensures 0 <= limit ==> k <= limit
    ensures k < n ==> k == limit
  {
    if limit < 0 || limit > n then n else limit
  }

  /** Every listed card is a stored row, read back unchanged. */
  ghost predicate AllStored(db: Db, items: seq<Card>) {
    forall i :: 0 <= i < |items| ==> items[i].card_id in db.cards && RowOf(items[i]) == db.cards[items[i].card_id]
  }

  ghost predicate DistinctIds(items: seq<Card>) {
    forall i, j :: 0 <= i < j < |items| ==> items[i].card_id != items[j].card_id
  }

  /** `ORDER BY updated_at DESC`. */
  ghost predicate NewestFirst(items: seq<Card>) {
    forall i, j :: 0 <= i < j < |items| ==> LexLe(items[j].updated_at, items[i].updated_at)
  }

  /** The card ids a listing contains. */
  ghost function IdsOf(items: seq<Card>): set<string>
    decreases |items|
  {
    if |items| == 0 then {} else IdsOf(items[..|items| - 1]) + {items[|items| - 1].card_id}
  }

  /** A stored card the limit cut off is no newer than any listed one. */
  ghost predicate NoNewerOmitted(db: Db, items: seq<Card>) {
    forall id :: id in db.cards && id !in IdsOf(items) ==>
      forall i :: 0 <= i < |items| ==> LexLe(db.cards[id].updated_at, items[i].updated_at)
  }

  /** A stored card whose `updated_at` is greatest among `candidates`. */
  method PickNewest(db: Db, candidates: set<string>) returns (id: string)
    requires candidates != {} && candidates <= db.cards.Keys
    ensures id in candidates
    ensures forall x :: x in candidates ==> LexLe(db.cards[x].updated_at, db.cards[id].updated_at)
  {
    id :| id in candidates;
    var rest := candidates - {id};
    LexLeReflexive(db.cards[id].updated_at);
    while rest != {}
      invariant rest <= candidates && id in candidates
      invariant forall x :: x in candidates && x !in rest ==> LexLe(db.cards[x].updated_at, db.cards[id].updated_at)
      decreases rest
    {
      var x :| x in rest;
      if !LexLe(db.cards[x].updated_at, db.cards[id].updated_at) {
        LexLeTotal(db.cards[x].updated_at, db.cards[id].updated_at);
        forall y | y in candidates && y !in rest
          ensures LexLe(db.cards[y].updated_at, db.cards[x].updated_at)
        {
          LexLeTransitive(db.cards[y].updated_at, db.cards[id].updated_at, db.cards[x].updated_at);
        }
        id := x;
      }
      LexLeReflexive(db.cards[x].updated_at);
      rest := rest - {x};
    }
  }

  /** One step of `SelectNewest`: appending the newest remaining card keeps the listing invariants. */
  lemma SelectStep(db: Db, items: seq<Card>, remaining: set<string>, card: Card)
    requires remaining <= db.cards.Keys && card.card_id in remaining
    requires RowOf(card) == db.cards[card.card_id]
    requires forall x :: x in remaining ==> LexLe(db.cards[x].updated_at, card.updated_at)
    requires AllStored(db, items) && DistinctIds(items) && NewestFirst(items)
    requires forall i :: 0 <= i < |items| ==> items[i].card_id !in remaining
    requires db.cards.Keys - remaining <= IdsOf(items)
    requires forall id :: id in remaining ==> forall i :: 0 <= i < |items| ==> LexLe(db.cards[id].updated_at, items[i].updated_at)
    ensures AllStored(db, items + [card]) && DistinctIds(items + [card]) && NewestFirst(items + [card])
    ensures forall i :: 0 <= i < |items| + 1 ==> (items + [card])[i].card_id !in remaining - {card.card_id}
    ensures db.cards.Keys - (remaining - {card.card_id}) <= IdsOf(items + [card])
    ensures forall id :: id in remaining - {card.card_id} ==>
      forall i :: 0 <= i < |items| + 1 ==> LexLe(db.cards[id].updated_at, (items + [card])[i].updated_at)
  {
    var next := items + [card];
    var n := |items|;
    assert next[..n] == items;
    assert IdsOf(next) == IdsOf(items) + {card.card_id};
    forall i | 0 <= i < n + 1
      ensures next[i].card_id in db.cards && RowOf(next[i]) == db.cards[next[i].card_id]
      ensures next[i].card_id !in remaining - {card.card_id}
    {
      if i < n { assert next[i] == items[i]; }
    }
    forall i, j | 0 <= i < j < n + 1
      ensures next[i].card_id != next[j].card_id
      ensures LexLe(next[j].updated_at, next[i].updated_at)
    {
      assert next[i] == items[i];
      if j < n {
        assert next[j] == items[j];
      } else {
        assert items[i].card_id !in remaining;
      }
    }
    forall id | id in remaining - {card.card_id}
      ensures forall i :: 0 <= i < n + 1 ==> LexLe(db.cards[id].updated_at, next[i].updated_at)
    {
      forall i | 0 <= i < n + 1
        ensures LexLe(db.cards[id].updated_at, next[i].updated_at)
      {
        if i < n { assert next[i] == items[i]; }
      }
    }
  }

  /**
   * The query `SELECT * FROM cards ORDER BY updated_at DESC LIMIT ?` once
   * the limit is bound. Rows with equal `updated_at` come out in an order
   * SQL leaves open, and so does this method.
   */
  method SelectNewest(db: Db, limit: int) returns (items: seq<Card>)
    ensures |items| == LimitBound(limit, |db.cards|)
    ensures AllStored(db, items)
    ensures DistinctIds(items)
    ensures NewestFirst(items)
    ensures NoNewerOmitted(db, items)
  {
    var n := LimitBound(limit, |db.cards|);
    var remaining := db.cards.Keys;
    items := [];
    while |items| < n
      invariant remaining <= db.cards.Keys
      invariant |items| <= n
      invariant |items| + |remaining| == |db.cards|
      invariant AllStored(db, items) && DistinctIds(items) && NewestFirst(items)
      invariant forall i :: 0 <= i < |items| ==> items[i].card_id !in remaining
      invariant db.cards.Keys - remaining <= IdsOf(items)
      invariant forall id :: id in remaining ==> forall i :: 0 <= i < |items| ==> LexLe(db.cards[id].updated_at, items[i].updated_at)
    {
      var id := PickNewest(db, remaining);
      var row := db.cards[id];
      var card := Card(id, row.detected_image_url, row.status, row.scores, row.updated_at, row.model);
      SelectStep(db, items, remaining, card);
      items := items + [card];
      remaining := remaining - {id};
    }
  }

  /**
   * `list_cards`: binds `limit` and runs the query. A limit outside the
   * 64-bit range makes the driver raise before the query runs. The cursor
   * argument is accepted and ignored, so it is not a parameter here.
   */
  method ListCards(db: Db, limit: int) returns (r: Result<seq<Card>, DbError>)
    ensures r.Err? <==> !FitsInt64(limit)
    ensures r.Err? ==> r.error == Overflow("limit")
    ensures r.Ok? ==> |r.value| == LimitBound(limit, |db.cards|)
    ensures r.Ok? ==> AllStored(db, r.value) && DistinctIds(r.value)
    ensures r.Ok? ==> NewestFirst(r.value) && NoNewerOmitted(db, r.value)
  {
    if !FitsInt64(limit) {
      return Err(Overflow("limit"));
    }
    var items := SelectNewest(db, limit);
    r := Ok(items);
  }

  // ---------- API keys ----------

  /** What `create_apikey` returns: the plaintext key, its card and its expiry. */
  datatype Issued = Issued(api_key: string, card_id: string, expires_at: real)

  /**
   * `create_apikey`: stores only the digest of the fresh plaintext key, with
   * `expires_at = now + ttl` and `used = 0`. Foreign keys are never enabled
   * on the connection, so the card need not exist; a digest already present
   * violates the primary key.
   */
  function CreateApiKey(db: Db, card_id: string, ttl: int, plain: string, now: real): (r: Result<(Db, Issued), DbError>)
    ensures r.Err? <==> Sha256(plain) in db.keys
    ensures r.Ok? ==> r.value.0.cards == db.cards
    ensures r.Ok? ==> r.value.0.keys.Keys == db.keys.Keys + {Sha256(plain)}
    ensures r.Ok? ==> forall h :: h in db.keys ==> r.value.0.keys[h] == db.keys[h]
    ensures r.Ok? ==> r.value.0.keys[Sha256(plain)] == KeyRow(card_id, now + ttl as real, 0)
    ensures r.Ok? ==> r.value.1 == Issued(plain, card_id, now + ttl as real)
  {
    var h := Sha256(plain);
    if h in db.keys then Err(DuplicateKey("api_key"))
    else
      var expires_at := now + ttl as real;
      Ok((db.(keys := db.keys[h := KeyRow(card_id, expires_at, 0)]), Issued(plain, card_id, expires_at)))
  }

  /**
   * `verify_apikey`: the key's digest is on record, bound to `card_id`, not
   * yet past its expiry (a key expiring exactly now is still accepted) and
   * not marked used.
   */
  function VerifyApiKey(db: Db, api_key: string, card_id: string, now: real): (ok: bool)
    ensures ok <==> Sha256(api_key) in db.keys
                    && db.keys[Sha256(api_key)].card_id == card_id
                    && now <= db.keys[Sha256(api_key)].expires_at
                    && db.keys[Sha256(api_key)].used != 1
  {
    var h := Sha256(api_key);
    if h !in db.keys then false
    else if db.keys[h].card_id != card_id then false
    else if db.keys[h].expires_at < now then false
    else if db.keys[h].used == 1 then false
    else true
  }

  /** `mark_apikey_used`: sets `used = 1` on the key's row, if there is one. */
  function MarkApiKeyUsed(db: Db, api_key: string): (r: Db)
    ensures r.cards == db.cards
    ensures r.keys.Keys == db.keys.Keys
    ensures forall h :: h in db.keys && h != Sha256(api_key) ==> r.keys[h] == db.keys[h]
    ensures Sha256(api_key) in db.keys ==> r.keys[Sha256(api_key)] == db.keys[Sha256(api_key)].(used := 1)
  {
    var h := Sha256(api_key);
    if h in db.keys then db.(keys := db.keys[h := db.keys[h].(used := 1)]) else db
  }

  /** `get_card_id_by_apikey`: the card an unexpired, unused key is bound to. */
  function GetCardIdByApiKey(db: Db, api_key: string, now: real): (r: Option<string>)
    ensures r.Some? <==> Sha256(api_key) in db.keys
                         && now <= db.keys[Sha256(api_key)].expires_at
                         && db.keys[Sha256(api_key)].used != 1
    ensures r.Some? ==> r.value == db.keys[Sha256(api_key)].card_id
  {
    var h := Sha256(api_key);
    if h !in db.keys then None
    else if db.keys[h].expires_at < now then None
    else if db.keys[h].used == 1 then None
    else Some(db.keys[h].card_id)
  }

  /** The two key checks agree: the lookup names exactly the card the key verifies for. */
  lemma LookupAgreesWithVerify(db: Db, api_key: string, card_id: string, now: real)
    ensures GetCardIdByApiKey(db, api_key, now) == Some(card_id) <==> VerifyApiKey(db, api_key, card_id, now)
  {
  }

  /** After `mark_apikey_used` the key neither verifies nor resolves to a card. */
  lemma MarkRevokes(db: Db, api_key: string, card_id: string, now: real)
    ensures !VerifyApiKey(MarkApiKeyUsed(db, api_key), api_key, card_id, now)
    ensures GetCardIdByApiKey(MarkApiKeyUsed(db, api_key), api_key, now) == None
  {
  }

  /** Marking one key used changes no answer about any other key, and no card. */
  lemma MarkLeavesOthers(db: Db, api_key: string, other: string, card_id: string, now: real)
    requires other != api_key
    ensures VerifyApiKey(MarkApiKeyUsed(db, api_key), other, card_id, now) == VerifyApiKey(db, other, card_id, now)
    ensures GetCardIdByApiKey(MarkApiKeyUsed(db, api_key), other, now) == GetCardIdByApiKey(db, other, now)
    ensures GetCard(MarkApiKeyUsed(db, api_key), card_id) == GetCard(db, card_id)
  {
  }

  /**
   * A freshly issued key verifies for its own card, and only for it, at every
   * moment up to and including its expiry, and at no moment after.
   */
  lemma IssuedKeyLifetime(db: Db, card_id: string, ttl: int, plain: string, now: real, other: string, t: real)
    requires Sha256(plain) !in db.keys
    ensures CreateApiKey(db, card_id, ttl, plain, now).Ok?
    ensures var db' := CreateApiKey(db, card_id, ttl, plain, now).value.0;
      VerifyApiKey(db', plain, other, t) <==> other == card_id && t <= now + ttl as real
  {
  }
}

=== FILE: detector.dfy ===
/**
 * The decision part of `detect` in backend/model.py. Decoding, YOLO
 * inference, box drawing and the file write are outside the model: the
 * detector's boxes arrive as a list of (label, confidence) pairs, and the
 * clock reading arrives as the ISO timestamp text.
 */
module Detector {
  import opened Wrappers
  import opened Schemas
  import opened Config

  /** One box the detector reported: its class name and confidence. */
  datatype Detection = Detection(name: string, conf: real)

  /**
   * What `detect` returns, read by the endpoints with `res.get(...)`: None is
   * a missing key. `detected_image_path` is the key the endpoints fall back
   * on when `result_name` is missing; `detect` never sets it.
   */
  datatype DetectOutput = DetectOutput(
    result_name: Option<string>,
    scores: Option<Scores>,
    status: Option<string>,
    updated_at: Option<string>,
    detected_image_path: Option<string>)

  function Max(a: real, b: real): real {
    if a >= b then a else b
  }

  /** `scores.get(name, 0.0)`: a label with no box counts as 0.0. */
  function ScoreOr0(scores: Scores, name: string): real {
    if name in scores then scores[name] else 0.0
  }

  /** Some box carries the class label `name`. */
  ghost predicate Detected(boxes: seq<Detection>, name: string) {
    exists i :: 0 <= i < |boxes| && boxes[i].name == name
  }

  /**
   * The loop over the boxes: each box raises its label's entry to
   * `max(scores.get(label, 0.0), conf)`.
   */
  function FoldScores(boxes: seq<Detection>): (scores: Scores)
    ensures forall name :: name in scores <==> Detected(boxes, name)
    ensures forall name :: name in scores ==> scores[name] >= 0.0
    decreases |boxes|
  {
    if |boxes| == 0 then map[]
    else
      var before := FoldScores(boxes[..|boxes| - 1]);
      var box := boxes[|boxes| - 1];
      assert forall i :: 0 <= i < |boxes| - 1 ==> boxes[..|boxes| - 1][i] == boxes[i];
      before[box.name := Max(ScoreOr0(before, box.name), box.conf)]
  }

  /**
   * `v` is the score a label deserves: the largest confidence among its
   * boxes, floored at the 0.0 the loop starts from.
   */
  ghost predicate IsPerLabelMax(boxes: seq<Detection>, name: string, v: real) {
    && v >= 0.0
    && (forall i :: 0 <= i < |boxes| && boxes[i].name == name ==> boxes[i].conf <= v)
    && (v == 0.0 || exists i :: 0 <= i < |boxes| && boxes[i].name == name && boxes[i].conf == v)
  }

  /** Each entry of the folded map is its label's maximum confidence. */
  lemma {:induction false} FoldScoresIsPerLabelMax(boxes: seq<Detection>, name: string)
    ensures name in FoldScores(boxes) ==> IsPerLabelMax(boxes, name, FoldScores(boxes)[name])
    decreases |boxes|
  {
    if |boxes| > 0 && name in FoldScores(boxes) {
      var init := boxes[..|boxes| - 1];
      var box := boxes[|boxes| - 1];
      FoldScoresIsPerLabelMax(init, name);
      assert forall i :: 0 <= i < |init| ==> init[i] == boxes[i];
      var v := FoldScores(boxes)[name];
      if box.name == name && v == box.conf {
        assert boxes[|boxes| - 1].name == name && boxes[|boxes| - 1].conf == v;
      }
    }
  }

  /** The status rule: FAIL when the spaghetti score reaches the threshold, NORMAL otherwise. */
  function StatusOf(scores: Scores): (status: string)
    ensures status == "FAIL" <==> ScoreOr0(scores, "spaghetti") >= CONF_THRESHOLD
    ensures status == "FAIL" || status == "NORMAL"
  {
    if ScoreOr0(scores, "spaghetti") >= CONF_THRESHOLD then "FAIL" else "NORMAL"
  }

  /** A print fails exactly when some spaghetti box reaches the threshold. */
  lemma FailIffSpaghettiBox(boxes: seq<Detection>)
    ensures StatusOf(FoldScores(boxes)) == "FAIL"
        <==> exists i :: 0 <= i < |boxes| && boxes[i].name == "spaghetti" && boxes[i].conf >= CONF_THRESHOLD
  {
    FoldScoresIsPerLabelMax(boxes, "spaghetti");
    if exists i :: 0 <= i < |boxes| && boxes[i].name == "spaghetti" && boxes[i].conf >= CONF_THRESHOLD {
      assert Detected(boxes, "spaghetti");
    }
  }

  /** Further boxes can turn NORMAL into FAIL but never FAIL into NORMAL. */
  lemma MoreBoxesKeepFail(boxes: seq<Detection>, more: seq<Detection>)
    requires StatusOf(FoldScores(boxes)) == "FAIL"
    ensures StatusOf(FoldScores(boxes + more)) == "FAIL"
  {
    FailIffSpaghettiBox(boxes);
    var i :| 0 <= i < |boxes| && boxes[i].name == "spaghetti" && boxes[i].conf >= CONF_THRESHOLD;
    assert (boxes + more)[i] == boxes[i];
    FailIffSpaghettiBox(boxes + more);
  }

  /** The name of the annotated image `detect` writes for a card. */
  function ResultNameFor(card_id: string): (name: string)
    ensures |name| > |card_id|
    ensures name[..|card_id|] == card_id
  {
    card_id + "_latest.jpg"
  }

  /**
   * `detect` with the image I/O stripped away: the folded scores, the status
   * they imply, the result file name and the timestamp.
   */
  function Detect(boxes: seq<Detection>, card_id: string, utcnow: string): (r: DetectOutput)
    ensures r.result_name.Some? && r.scores.Some? && r.status.Some? && r.updated_at.Some?
    ensures r.result_name.value != ""
    ensures r.status.value == "FAIL" || r.status.value == "NORMAL"
    ensures r.status.value == StatusOf(r.scores.value)
    ensures r.detected_image_path.None?
  {
    var scores := FoldScores(boxes);
    DetectOutput(Some(ResultNameFor(card_id)), Some(scores), Some(StatusOf(scores)), Some(utcnow), None)
  }

  /** Every detection for one card reuses one file name, so a newer result overwrites the older. */
  lemma ResultNameStable(boxes1: seq<Detection>, boxes2: seq<Detection>, card_id: string, t1: string, t2: string)
    ensures Detect(boxes1, card_id, t1).result_name == Detect(boxes2, card_id, t2).result_name
  {
  }
}

=== FILE: scenarios.dfy ===
/**
 * Properties that relate several endpoints of backend/cards.py to each
 * other and to the store: what a later request sees of an earlier one.
 */
module Scenarios {
  import opened Wrappers
  import opened Text
  import opened Config
  import opened Database
  import opened Detector
  import opened Cards

  /** Exactly the limit is accepted; one byte more is refused. */
  lemma SizeLimitIsInclusive(content_type: string)
    requires content_type in ALLOWED_MIME
    ensures CheckUpload(Upload(content_type, MAX_FILE_SIZE as nat)).None?
    ensures CheckUpload(Upload(content_type, MAX_FILE_SIZE as nat + 1)) == Some(TOO_LARGE)
  {
  }

  /** A bad content type is reported even when the file is also too large. */
  lemma MimeCheckedBeforeSize(content_type: string, size: nat)
    requires content_type !in ALLOWED_MIME
    ensures CheckUpload(Upload(content_type, size)) == Some(BAD_MIME)
  {
  }

  /** A created card reads back through `GET /cards/{id}` with the same status and scores. */
  lemma CreatedCardIsReadable(db: Db, cookies: map<string, string>, upload: Upload, boxes: seq<Detection>, env: Env)
    requires CheckUpload(upload).None?
    ensures var h := CreateCard(db, cookies, upload, boxes, env);
      h.reply.code == 201
      && GetCardEndpoint(h.db, TokenHex(env.cardBytes)).reply == Reply(200, h.reply.body, None)
  {
  }

  /**
   * Over any history of upserts into an empty store, `GET /cards/{id}`
   * answers 404 exactly when no accepted upsert named the id.
   */
  lemma NeverStoredIs404(history: seq<CardFields>, card_id: string)
    ensures GetCardEndpoint(Replay(EmptyDb, history), card_id).reply.code == 404
        <==> LastUpsert(history, card_id).None?
  {
  }

  /** A successful replace leaves every key as it was: the same key works again until it expires. */
  lemma ReplaceKeepsKeyValid(
    db: Db, card_id: string, api_key: string, callback_url: Option<string>,
    cookies: map<string, string>, upload: Upload, boxes: seq<Detection>, env: Env, t: real)
    requires ReplaceCard(db, card_id, Some(api_key), callback_url, cookies, upload, boxes, env).reply.code == 200
    ensures var h := ReplaceCard(db, card_id, Some(api_key), callback_url, cookies, upload, boxes, env);
      VerifyApiKey(h.db, api_key, card_id, t) == VerifyApiKey(db, api_key, card_id, t)
      && VerifyApiKey(h.db, api_key, card_id, env.now)
  {
  }

  /** A key marked used is refused by both replace endpoints. */
  lemma UsedKeyRefused(
    db: Db, card_id: string, api_key: string, callback_url: Option<string>,
    cookies: map<string, string>, upload: Upload, boxes: seq<Detection>, env: Env)
    ensures var db' := MarkApiKeyUsed(db, api_key);
      ReplaceCard(db', card_id, Some(api_key), callback_url, cookies, upload, boxes, env).reply.code == 401
      && ReplaceByKey(db', Some(api_key), callback_url, cookies, upload, boxes, env).reply.code == 401
  {
  }

  /**
   * The key `genkey` hands out opens its own card: a valid upload to
   * `/cards/{id}/replace` with it, up to and including the expiry, succeeds.
   */
  lemma GeneratedKeyOpensItsCard(
    db: Db, env: Env, callback_url: Option<string>, cookies: map<string, string>,
    upload: Upload, boxes: seq<Detection>, later: Env)
    requires GenKey(db, env).reply.code == 200
    requires env.keyToken != ""
    requires later.now <= env.now + KEY_TTL as real
    requires CheckUpload(upload).None?
    ensures var h := GenKey(db, env);
      ReplaceCard(h.db, TokenHex(env.cardBytes), Some(env.keyToken), callback_url, cookies, upload, boxes, later).reply.code == 200
  {
  }

  /** `gen_cardkey` also reserves a PENDING card and binds the key it issues to that card. */
  lemma GenCardKeyReservesAndBinds(db: Db, env: Env)
    ensures var h := GenCardKey(db, env);
      Reserved(h, db, TokenHex(env.cardBytes), env.utcnow)
      && (h.reply.code == 200 ==>
            h.reply.body.KeyBody? && h.reply.body.issued.card_id == TokenHex(env.cardBytes)
            && GetCardIdByApiKey(h.db, env.keyToken, env.now) == Some(TokenHex(env.cardBytes)))
  {
  }

  /**
   * The key-only replace stores and returns the result URL followed by
   * `?v=` and six hex digits; the part before the '?' routes back to the
   * session and the card's result file.
   */
  lemma KeyOnlyReplaceUrl(
    db: Db, api_key: string, callback_url: Option<string>,
    cookies: map<string, string>, upload: Upload, boxes: seq<Detection>, env: Env)
    requires ReplaceByKey(db, Some(api_key), callback_url, cookies, upload, boxes, env).reply.code == 200
    ensures var h := ReplaceByKey(db, Some(api_key), callback_url, cookies, upload, boxes, env);
      var card_id := GetCardIdByApiKey(db, api_key, env.now).value;
      var sid := SessionId(cookies, env.sessionToken).0;
      h.reply.body.card.detected_image_url
        == ResultPath(sid, ResultNameFor(card_id)) + "?v=" + TokenHex(env.nonceBytes)
      && |TokenHex(env.nonceBytes)| == 6
  {
  }

  /** The cache-busted URL splits at its '?' into a routable result path and the version query. */
  lemma VersionedUrlRoutesBack(sid: string, card_id: string, nonce: Bytes3)
    requires sid != "" && '/' !in sid && '?' !in sid
    requires '/' !in card_id && '?' !in card_id
    ensures var url := ResultPath(sid, ResultNameFor(card_id)) + VersionQuery(nonce);
      SplitOnce(url, '?') == Some((ResultPath(sid, ResultNameFor(card_id)), "v=" + TokenHex(nonce)))
      && ParseResultPath(ResultPath(sid, ResultNameFor(card_id))) == Some((sid, ResultNameFor(card_id)))
  {
    var name := ResultNameFor(card_id);
    assert name == card_id + "_latest.jpg";
    assert '/' !in name && '?' !in name;
    var path := ResultPath(sid, name);
    assert '?' !in path;
    assert path + VersionQuery(nonce) == path + ['?'] + ("v=" + TokenHex(nonce));
    SplitOnceJoin(path, '?', "v=" + TokenHex(nonce));
    ResultPathRoutesBack(sid, name);
  }
}

=== FILE: schemas.dfy ===
/** The record shape of a card, as backend/schemas.py declares it. */
module Schemas {

  /** Per-label detector confidences. */
  type Scores = map<string, real>

  /**
   * One card: the latest detection result for one subject. The schema
   * makes `scores` optional, but every card the store returns carries a
   * (possibly empty) map, so the model keeps it mandatory.
   */
  datatype Card = Card(
    card_id: string,
    detected_image_url: string,
    status: string,
    scores: Scores,
    updated_at: string,
    model: string)
}

=== FILE: text.dfy ===
/**
 * String helpers shared by the backend and the client: the byte-wise order
 * SQLite uses for TEXT columns, lower-case hex tokens, decimal rendering of
 * integers, JavaScript's `trim` and occurrence counting.
 */
module Text {
  import opened Wrappers

  /** An octet. */
  type byte = b: int | 0 <= b < 256

  // ---------- ordering of TEXT values ----------

  /**
   * `a` sorts no later than `b` under SQLite's BINARY collation: compare
   * code point by code point, a proper prefix sorting first. (UTF-8 keeps
   * code point order, so this is the same as comparing the encoded bytes.)
   */
  predicate LexLe(a: string, b: string)
    decreases |a|
  {
    |a| == 0 || (|b| > 0 && (a[0] < b[0] || (a[0] == b[0] && LexLe(a[1..], b[1..]))))
  }

  lemma {:induction false} LexLeReflexive(a: string)
    ensures LexLe(a, a)
  {
    if |a| > 0 {
      LexLeReflexive(a[1..]);
    }
  }

  lemma {:induction false} LexLeTotal(a: string, b: string)
    ensures LexLe(a, b) || LexLe(b, a)
  {
    if |a| > 0 && |b| > 0 && a[0] == b[0] {
      LexLeTotal(a[1..], b[1..]);
    }
  }

  lemma {:induction false} LexLeTransitive(a: string, b: string, c: string)
    requires LexLe(a, b) && LexLe(b, c)
    ensures LexLe(a, c)
  {
    if |a| > 0 && a[0] == b[0] && b[0] == c[0] {
      LexLeTransitive(a[1..], b[1..], c[1..]);
    }
  }

  lemma {:induction false} LexLeAntisymmetric(a: string, b: string)
    requires LexLe(a, b) && LexLe(b, a)
    ensures a == b
  {
    if |a| > 0 {
      LexLeAntisymmetric(a[1..], b[1..]);
      assert a == [a[0]] + a[1..];
      assert b == [b[0]] + b[1..];
    }
  }

  // ---------- hexadecimal ----------

  predicate IsLowerHex(c: char) {
    '0' <= c <= '9' || 'a' <= c <= 'f'
  }

  /** The lower-case hex digit of a nibble, as `bytes.hex()` writes it. */
  function LowerHexDigit(n: int): (c: char)
    requires 0 <= n < 16
    ensures IsLowerHex(c)
  {
    if n < 10 then ('0' as int + n) as char else ('a' as int + n - 10) as char
  }

  /** The nibble a lower-case hex digit denotes. */
  function LowerHexValue(c: char): Option<int> {
    if '0' <= c <= '9' then Some(c as int - '0' as int)
    else if 'a' <= c <= 'f' then Some(c as int - 'a' as int + 10)
    else None
  }

  lemma LowerHexDigitValue(n: int)
    requires 0 <= n < 16
    ensures LowerHexValue(LowerHexDigit(n)) == Some(n)
  {
  }

  /**
   * The text `secrets.token_hex` produces from its random bytes: two
   * lower-case hex digits per byte, high nibble first.
   */
  function TokenHex(bytes: seq<byte>): (s: string)
    ensures |s| == 2 * |bytes|
    ensures forall i :: 0 <= i < |s| ==> IsLowerHex(s[i])
  {
    if |bytes| == 0 then ""
    else [LowerHexDigit(bytes[0] as int / 16), LowerHexDigit(bytes[0] as int % 16)] + TokenHex(bytes[1..])
  }

  /** Reads lower-case hex text back into bytes; None on odd length or a non-hex character. */
  function HexDecode(s: string): Option<seq<byte>>
    decreases |s|
  {
    if |s| == 0 then Some([])
    else if |s| == 1 then None
    else
      match (LowerHexValue(s[0]), LowerHexValue(s[1]), HexDecode(s[2..]))
      case (Some(hi), Some(lo), Some(rest)) => Some([hi * 16 + lo] + rest)
      case _ => None
  }

  /** A hex token determines the bytes it was made from. */
  lemma {:induction false} HexRoundTrip(bytes: seq<byte>)
    ensures HexDecode(TokenHex(bytes)) == Some(bytes)
  {
    if |bytes| > 0 {
      var b := bytes[0] as int;
      var s := TokenHex(bytes);
      assert s[2..] == TokenHex(bytes[1..]);
      LowerHexDigitValue(b / 16);
      LowerHexDigitValue(b % 16);
      HexRoundTrip(bytes[1..]);
      assert bytes == [bytes[0]] + bytes[1..];
    }
  }

  // ---------- decimal ----------

  predicate IsDigit(c: char) {
    '0' <= c <= '9'
  }

  function DigitChar(n: int): (c: char)
    requires 0 <= n < 10
    ensures IsDigit(c)
  {
    ('0' as int + n) as char
  }

  /** The decimal text of a non-negative integer, as a JavaScript template literal renders it. */
  function Decimal(n: nat): (s: string)
    ensures |s| > 0
    ensures forall i :: 0 <= i < |s| ==> IsDigit(s[i])
  {
    if n < 10 then [DigitChar(n)] else Decimal(n / 10) + [DigitChar(n % 10)]
  }

  /** The value of a string of decimal digits. */
  function DecimalValue(s: string): nat
    requires forall i :: 0 <= i < |s| ==> IsDigit(s[i])
  {
    if |s| == 0 then 0
    else
      assert IsDigit(s[|s| - 1]);
      DecimalValue(s[..|s| - 1]) * 10 + (s[|s| - 1] as int - '0' as int)
  }

  /** Rendering then reading a number gives it back. */
  lemma {:induction false} DecimalRoundTrip(n: nat)
    ensures DecimalValue(Decimal(n)) == n
  {
    if n >= 10 {
      var s := Decimal(n);
      assert s[..|s| - 1] == Decimal(n / 10);
      DecimalRoundTrip(n / 10);
    }
  }

  // ---------- JavaScript String.prototype.trim ----------

  /** The characters JavaScript's `trim` removes: WhiteSpace and LineTerminator. */
  predicate IsJsSpace(c: char) {
    c in {'\t', '\n', '\U{000B}', '\U{000C}', '\r', ' ', '\U{00A0}', '\U{1680}',
          '\U{2028}', '\U{2029}', '\U{202F}', '\U{205F}', '\U{3000}', '\U{FEFF}'}
    || '\U{2000}' <= c <= '\U{200A}'
  }

  /** `s` with its leading white space removed. */
  function TrimStart(s: string): (r: string)
    ensures |r| <= |s| && r == s[|s| - |r|..]
    ensures forall i :: 0 <= i < |s| - |r| ==> IsJsSpace(s[i])
    ensures |r| > 0 ==> !IsJsSpace(r[0])
  {
    if |s| > 0 && IsJsSpace(s[0]) then TrimStart(s[1..]) else s
  }

  /** `s` with its trailing white space removed. */
  function TrimEnd(s: string): (r: string)
    ensures |r| <= |s| && r == s[..|r|]
    ensures forall i :: |r| <= i < |s| ==> IsJsSpace(s[i])
    ensures |r| > 0 ==> !IsJsSpace(r[|r| - 1])
  {
    if |s| > 0 && IsJsSpace(s[|s| - 1]) then TrimEnd(s[..|s| - 1]) else s
  }

  /** JavaScript's `s.trim()`. */
  function Trim(s: string): string {
    TrimEnd(TrimStart(s))
  }

  /** Trimming leaves nothing exactly when the string is all white space. */
  lemma TrimEmptyIffBlank(s: string)
    ensures Trim(s) == "" <==> forall i :: 0 <= i < |s| ==> IsJsSpace(s[i])
  {
  }

  // ---------- counting ----------

  /** The number of occurrences of `c` in `s`. */
  function Count(s: string, c: char): (n: nat)
    ensures n <= |s|
    ensures n == 0 <==> c !in s
  {
    if |s| == 0 then 0
    else (if s[0] == c then 1 else 0) + Count(s[1..], c)
  }

  lemma {:induction false} CountConcat(a: string, b: string, c: char)
    ensures Count(a + b, c) == Count(a, c) + Count(b, c)
  {
    if |a| == 0 {
      assert a + b == b;
    } else {
      assert (a + b)[0] == a[0];
      assert (a + b)[1..] == a[1..] + b;
      CountConcat(a[1..], b, c);
    }
  }

  // ---------- splitting ----------

  /** Splits `s` at the first `c`: the text before it and the text after it. */
  function SplitOnce(s: string, c: char): (r: Option<(string, string)>)
    ensures r.None? <==> c !in s
    ensures r.Some? ==> s == r.value.0 + [c] + r.value.1 && c !in r.value.0
  {
    if |s| == 0 then None
    else if s[0] == c then Some(([], s[1..]))
    else
      match SplitOnce(s[1..], c)
      case None => None
      case Some((before, after)) => Some(([s[0]] + before, after))
  }

  /** Splitting `a + [c] + b` at `c` recovers `a` and `b` when `a` has no `c`. */
  lemma SplitOnceJoin(a: string, c: char, b: string)
    requires c !in a
    ensures SplitOnce(a + [c] + b, c) == Some((a, b))
  {
    var s := a + [c] + b;
    assert s[|a|] == c;
    var r := SplitOnce(s, c);
    var a' := r.value.0;
    assert s[|a'|] == c && forall i :: 0 <= i < |a'| ==> s[i] == a'[i] != c;
    assert forall i :: 0 <= i < |a| ==> s[i] == a[i] != c;
    assert |a'| == |a|;
    assert a' == s[..|a|] == a;
    assert r.value.1 == s[|a| + 1..] == b;
  }
}

=== FILE: uri.dfy ===
/**
 * JavaScript's `encodeURIComponent`, which the client applies to a card id
 * before placing it in a request path. Dafny's `char` is a Unicode scalar
 * value, so the lone-surrogate case in which the JavaScript function throws
 * cannot arise here.
 */
module Uri {
  import opened Text

  /** Characters `encodeURIComponent` leaves as they are. */
  predicate Unreserved(c: char) {
    'A' <= c <= 'Z' || 'a' <= c <= 'z' || '0' <= c <= '9'
    || c in {'-', '_', '.', '!', '~', '*', '\'', '(', ')'}
  }

  /** Characters that may appear in an encoded component. */
  predicate EncodedChar(c: char) {
    Unreserved(c) || c == '%'
  }

  /** The UTF-8 encoding of one Unicode scalar value. */
  function Utf8(cp: int): (bytes: seq<byte>)
    requires 0 <= cp < 0x11_0000
    ensures 1 <= |bytes| <= 4
    ensures cp < 0x80 <==> |bytes| == 1
  {
    if cp < 0x80 then [cp]
    else if cp < 0x800 then [0xC0 + cp / 0x40, 0x80 + cp % 0x40]
    else if cp < 0x1_0000 then [0xE0 + cp / 0x1000, 0x80 + (cp / 0x40) % 0x40, 0x80 + cp % 0x40]
    else [0xF0 + cp / 0x4_0000, 0x80 + (cp / 0x1000) % 0x40, 0x80 + (cp / 0x40) % 0x40, 0x80 + cp % 0x40]
  }

  function UpperHexDigit(n: int): (c: char)
    requires 0 <= n < 16
    ensures Unreserved(c)
  {
    if n < 10 then ('0' as int + n) as char else ('A' as int + n - 10) as char
  }

  /** `%XX` for each byte, with upper-case hex digits. */
  function PercentEncode(bytes: seq<byte>): (s: string)
    ensures |s| == 3 * |bytes|
    ensures forall i :: 0 <= i < |s| ==> EncodedChar(s[i])
  {
    if |bytes| == 0 then ""
    else ['%', UpperHexDigit(bytes[0] / 16), UpperHexDigit(bytes[0] % 16)] + PercentEncode(bytes[1..])
  }

  function EncodeChar(c: char): string {
    if Unreserved(c) then [c] else PercentEncode(Utf8(c as int))
  }

  /** `encodeURIComponent(s)`. */
  function EncodeUriComponent(s: string): (r: string)
    ensures |r| >= |s|
    ensures forall i :: 0 <= i < |r| ==> EncodedChar(r[i])
  {
    if |s| == 0 then "" else EncodeChar(s[0]) + EncodeUriComponent(s[1..])
  }

  /**
   * An encoded component never contains a path or query delimiter, so it
   * always stays a single path segment.
   */
  lemma EncodedIsOneSegment(s: string)
    ensures '/' !in EncodeUriComponent(s) && '?' !in EncodeUriComponent(s)
  {
  }

  /** A component made only of unreserved characters is left unchanged. */
  lemma {:induction false} EncodeUnreservedIsIdentity(s: string)
    requires forall i :: 0 <= i < |s| ==> Unreserved(s[i])
    ensures EncodeUriComponent(s) == s
  {
    if |s| > 0 {
      EncodeUnreservedIsIdentity(s[1..]);
      assert s == [s[0]] + s[1..];
    }
  }

  /** Hex tokens such as the card ids `secrets.token_hex` makes pass through unchanged. */
  lemma HexTokenEncodesToItself(bytes: seq<byte>)
    ensures EncodeUriComponent(TokenHex(bytes)) == TokenHex(bytes)
  {
  }
}

=== FILE: wrappers.dfy ===
/** Failure-compatible wrappers shared by every module of the model. */
module Wrappers {

  /** A value that may be absent: Python's `None`, a missing dict key, an unset header. */
  datatype Option<+T> = None | Some(value: T) {

    /** The wrapped value, or `default` when absent (Python's `d.get(k, default)`). */
    function GetOr(default: T): T {
      match this
      case Some(v) => v
      case None => default
    }
  }

  /** The outcome of an operation that can raise: a value or an error. */
  datatype Result<+T, +E> = Ok(value: T) | Err(error: E)
}
